=== FILE: README.md ===
# Public Google Drive URLs, in Dafny

A model of a small Python library that does two things. First, it turns a
Google Drive share link into an access URL that downloads or exports the
document. Second, it finds out where that URL leads, and whether it leads to
a Google sign-in page (the document is then not public). The library comes
in two versions:

- `public_drive_urls.py` holds the share-URL parser (`DRIVE_URL_REGEX`), the
  access-URL templates (`ACCESS_URLS`, `DriveDocumentResource`), and a
  single-request finder (`DriveDocumentFinder`).
- `public_drive_urls2.py` holds a finder that issues up to 21 requests, so it follows at most 20 redirects
  (`DriveResourceFinder`).

Modules, in dependency order:

- `Wrappers` (`wrappers.dfy`): `Option`.
- `Text` (`text.dfy`): ASCII lower-casing, first-occurrence search, the text
  after the last delimiter, and substring search (Python's `in`) with its
  declarative meaning `IsSubstring`.
- `UrlSplit` (`url_split.dfy`): `urlsplit(url).hostname.lower()`. The
  scheme, the `//` network location, the userinfo up to the last `@` and
  the port are stripped as Python 3 does. `None` stands for a missing
  hostname, where `.lower()` raises. It also stands for a network location
  that holds a square bracket, on which `urlsplit` raises `ValueError`
  unless the host is a bracketed IP literal, which is not modelled.
- `Http` (`http.dfy`): a response, meaning a status code and an optional
  `Location` header.
- `DriveResource` (`drive_resource.dfy`): the parser and the templates. The
  regex is modelled as `Parse`, a left-to-right scan. It is proved to be the
  exact inverse of `Render`, which writes a share link out from its parts.
- `DocumentFinder` (`document_finder.dfy`): the single-request finder.
- `ResourceFinder` (`resource_finder.dfy`): the redirect loop. `Chase` is
  the loop as a recursive function over the counter. `Resolve` adds the
  host check on the URL that answered 200. `Requests` lists the URLs
  requested. The method `TryResolveUrl` is the `while` loop as written, and
  it is proved equal to both.
- `FinderVersions` (`finder_versions.dfy`): how the two finders' verdicts
  relate.

HTTP is a parameter `fetch: string -> Response` that gives the answer to a
GET with redirect following turned off. Python exceptions are outcomes:
- `NotPublicResourceException` is `NotPublic`.
- `ResourceNotFoundException` is `NotFound`.
- The `AttributeError` from `None.lower()` is `HostnameError`, and so is the `ValueError` that `urlsplit` raises on a square bracket in the network location.
- A `None` return is `NoUrl`.

## Model

| member | source | states |
|---|---|---|
| DriveResource.Parse | public_drive_urls.py:28-38 | any link the regex reads from a string has a valid hosting type, a non-empty id over `[A-Za-z0-9_-]` and a domain over `[A-Za-z0-9.-]`, and writing it back out gives exactly the input string |
| DriveResource.ParseRender | public_drive_urls.py:28-38 | round trip: every valid link (either host, optional `a/<domain>/`, any of the four types, any id, any text after the `/`) is read back from its URL with exactly its own type (group 1) and id (group 2) |
| DriveResource.ParseIffRender | public_drive_urls.py:28-38 | the regex matches a string with link `l` if and only if `l` is valid and renders to that string |
| DriveResource.ParseNone | public_drive_urls.py:102-115 | the match fails exactly on the strings that are not the rendering of any valid link; then `from_share_url` gets `None` and does not raise |
| DriveResource.ExportFormat | public_drive_urls.py:92-96 | the export format is the override when one is given, otherwise `pdf` |
| DriveResource.ExportTail | public_drive_urls.py:22-24 | what a native template puts after the id and its `/` ends with the export format, after a marker whose length depends on the hosting type only |
| DriveResource.NativeAccessUrl | public_drive_urls.py:16-25 | each native template, filled in, is the share link on the `docs` host with no domain, the same hosting type and id, and the export request as the text after the id |
| DriveResource.NewResource | public_drive_urls.py:67-90 | for `file`, the access URL is the download URL with the id and `export_format` stays `None`, whatever override is passed; for a native type, the format is set and its template is filled with the id and the format |
| DriveResource.ResourceFromShareUrl | public_drive_urls.py:100-115 | a resource comes back exactly when the regex matches, and its id is a non-empty id-character run, so the `None` branch for empty groups is never taken |
| DriveResource.ResourceFromRender | public_drive_urls.py:100-107 | the resource built from a share URL has exactly the id and type written in it |
| DriveResource.NativeAccessUrlReparses | public_drive_urls.py:22-24 | a native export URL is itself a share URL, and reading it back with its own export format gives the same resource |
| DriveResource.FileAccessUrlIsNoShareUrl | public_drive_urls.py:18 | the `file` download URL is not a share URL: the regex does not match it |
| DriveResource.AccessUrlInjective | public_drive_urls.py:16-25 | two resources with the same access URL have the same id, the same hosting type and the same export format |
| Text.Contains | public_drive_urls.py:179 | Python's `needle in hay` on strings holds exactly when `needle` occurs in `hay` at some index |
| UrlSplit.LoweredHostname | public_drive_urls2.py:110 | a hostname that can be read is non-empty, has no upper-case ASCII letter, and holds none of `:@[]/?#` |
| UrlSplit.HostnameOfAuthority | public_drive_urls.py:179 | for `scheme://host` followed by nothing or by a path, query or fragment, the hostname read is the lower-cased host |
| UrlSplit.HostnameAfterUserinfo | public_drive_urls2.py:110 | for `scheme://<userinfo>@host` followed by nothing or by a path, query or fragment, with no square bracket in the userinfo, the hostname read is the lower-cased host: everything up to the last `@` is skipped |
| UrlSplit.BracketedUserinfoHasNoHost | public_drive_urls2.py:110 | a square bracket in the userinfo leaves no hostname, whatever ordinary host follows the last `@`, as Python 3's `urlsplit` raises `ValueError` there |
| UrlSplit.HostnameIgnoresCase | public_drive_urls2.py:110 | lower-casing the whole URL changes neither whether it has a hostname nor which one |
| DocumentFinder.IsValidRedirectUrl | public_drive_urls.py:175-179 | a URL is valid exactly when its hostname can be read and does not contain `google.com`; no verdict when there is no hostname |
| DocumentFinder.FindRedirectLocation | public_drive_urls.py:162-179 | `None` exactly when there is no `Location`; the `Location` itself exactly when it passes the check; `NotPublic` exactly when its hostname can be read and fails the check; the hostname error exactly when its hostname cannot be read (a relative `/login`, say) |
| DocumentFinder.TryResolveUrl | public_drive_urls.py:147-173 | a 200 returns the access URL unchanged; a status other than 200 and 302, or a 302 without `Location`, returns `None`; a 302 whose `Location` passes the check returns that `Location`, one whose `Location` fails it gives `NotPublic`, and one whose `Location` has no hostname gives the hostname error; conversely, any URL returned is the access URL after a 200 or the valid `Location` of a 302, and `NotPublic` comes only from a 302 whose `Location` fails the check |
| DocumentFinder.FromShareUrl | public_drive_urls.py:140-145 | a share URL that does not parse gives `None`; one that parses gives the verdict of a single request to the access URL of the resource built from its type, its id and the given export format |
| DocumentFinder.OneRequest | public_drive_urls.py:147-152 | only the access URL is requested: transports that agree on it give the same verdict, whatever they answer for the `Location` |
| DocumentFinder.ValidRedirectIgnoresCase | public_drive_urls.py:179 | the redirect check gives the same verdict on a URL and on its lower-cased form |
| DocumentFinder.GoogleSubdomainIsNotPublic | public_drive_urls.py:14 | since the check is a substring test on `google.com`, a redirect to any `https://<sub>.google.com/...` is `NotPublic`, not only the sign-in host |
| DocumentFinder.ShareUrlServedDirectly | public_drive_urls.py:140-157 | a share URL whose access URL answers 200 resolves to that access URL |
| ResourceFinder.IsAccessibleLocation | public_drive_urls2.py:106-110 | a URL is accessible exactly when its hostname can be read and does not contain `accounts.google.com`; not accessible exactly when it contains it |
| ResourceFinder.CheckAccessible | public_drive_urls2.py:69-78 | after a 200 the result is the URL itself exactly when it is accessible, `NotPublic` exactly when it is not, and the hostname error exactly when it has no hostname |
| ResourceFinder.GetRedirectLocation | public_drive_urls2.py:91-104 | the redirect location is exactly the `Location` header; none when the header is missing, which the loop turns into `ResourceNotFoundException` |
| ResourceFinder.Chase | public_drive_urls2.py:63-86 | the loop ends without an answer once the counter passes 20; when it does end with an answer, the URL it ends at is one that answered 200 |
| ResourceFinder.Resolve | public_drive_urls2.py:63-89 | a URL returned answered 200 and passes the sign-in check; `ResourceNotFoundException` arises exactly when the loop ends without a 200 |
| ResourceFinder.Requests | public_drive_urls2.py:63-68 | the requested URLs start with the given URL, and there are at least one and at most 21 of them (counter values 0 to 20) |
| ResourceFinder.RequestsChain | public_drive_urls2.py:80-82 | each requested URL after the first is the `Location` of a 302 answered by the one before it |
| ResourceFinder.StopsAtLastRequest | public_drive_urls2.py:63-89 | the loop stops at the last requested URL; it has an answer there exactly when that URL answered 200 |
| ResourceFinder.OutcomeOfLastRequest | public_drive_urls2.py:63-89 | the outcome depends only on the last URL requested: after a 200 there, its host check decides; after anything else, `NotFound` |
| ResourceFinder.ResolvedIsLastRequest | public_drive_urls2.py:69-82 | a resolved URL answered 200, passes the host check, and is either the start URL or the `Location` of some 302 in the chain |
| ResourceFinder.NotPublicOnlyFromOk | public_drive_urls2.py:69-82 | `NotPublic` arises exactly when the last URL requested answered 200 and its host contains `accounts.google.com` |
| ResourceFinder.DependsOnlyOnRequests | public_drive_urls2.py:63-89 | transports that agree on the requested URLs give the same requests and the same stopping point, from any counter value |
| ResourceFinder.SameRequestsSameOutcome | public_drive_urls2.py:44-89 | transports that agree on the requested URLs give the same outcome |
| ResourceFinder.EndlessRedirects | public_drive_urls2.py:88-89 | a transport that always answers 302 with a `Location` makes the loop issue exactly 21 requests and end with `NotFound` |
| ResourceFinder.RedirectFollowedAnywhere | public_drive_urls2.py:80-82 | a 302 target is requested next, with the counter one higher, whatever its host, the sign-in host included |
| ResourceFinder.StopsAtError | public_drive_urls2.py:84-86 | a status other than 200 and 302, or a 302 without `Location`, gives `NotFound` after that single request |
| ResourceFinder.ServedDirectly | public_drive_urls2.py:69-78 | a 200 on the first request ends the loop after one request, with the host check on that URL |
| ResourceFinder.AccessibleIgnoresCase | public_drive_urls2.py:106-110 | the sign-in check gives the same verdict on a URL and on its lower-cased form |
| ResourceFinder.TryResolveUrl | public_drive_urls2.py:44-89 | the `while` loop as written: returns the outcome, equal to `Resolve`; a ghost output, which the source does not have, records the requested URLs, equal to `Requests`, 1 to 21 of them |
| ResourceFinder.UserinfoDoesNotHideSignIn | public_drive_urls2.py:69-78 | userinfo in front of a host does not hide it: a 200 on `https://<userinfo>@<host>...`, where the host contains `accounts.google.com` and the userinfo has no square bracket, is `NotPublic` |
| ResourceFinder.BracketedUserinfoRaises | public_drive_urls2.py:69-78 | a 200 on `https://<userinfo>@<host>...` with a square bracket in the userinfo ends in the error `urlsplit` raises, whatever the host |
| FinderVersions.ValidRedirectIsAccessible | public_drive_urls2.py:106-110 | every URL that passes the check of `public_drive_urls.py` passes this one; every URL this one rejects, the other rejects; the two fail on the same URLs |
| FinderVersions.ShortGoogleSubdomainSeparatesFinders | public_drive_urls2.py:9 | the converse fails: `https://<sub>.google.com/...` with a sub-domain shorter than 8 characters (`www`, say) is `NotPublic` to the first finder and accessible to the second |
| FinderVersions.AccessUrlHostname | public_drive_urls.py:16-25 | the hostname of every access URL is `drive.google.com` for `file` and `docs.google.com` for the native types |
| FinderVersions.AccessUrlChecks | public_drive_urls2.py:106-110 | every access URL passes the sign-in check of the loop version, and fails the redirect check of the single-request version |
| FinderVersions.ServedAccessUrlAgrees | public_drive_urls2.py:69-76 | an access URL that answers 200 is the result of both finders |
| FinderVersions.AcceptedRedirectAgrees | public_drive_urls2.py:80-82 | when the single-request finder accepts a 302 whose target answers 200, the loop resolves to that same target |
| FinderVersions.RejectedRedirectAgrees | public_drive_urls.py:162-168 | when the loop finds a one-hop redirect target not public, the single-request finder says `NotPublic` too |

## Left out

- HTTP (`requests.get`, `requests.Session`) is the `fetch` parameter: one deterministic answer per URL. Session state such as cookies is not modelled. Timeouts and connection errors are not modelled.
- `fetch` answers every string, but `requests` raises `MissingSchema` or `InvalidURL` before sending anything when the URL has no scheme or no host. The loop of `public_drive_urls2.py` passes each `Location` straight to `session.get` (lines 68 and 81), so a relative or empty `Location` raises there. Likewise, a `Location` whose scheme is neither `http` nor `https` (`ftp://...`, `mailto:...`) makes `session.get` raise `InvalidSchema`. The model requests every such string anyway and goes on with whatever `fetch` answers for it. If a hostless URL answers 200, the model ends in the hostname error (`HostnameError`), where Python has already raised at the request. Later hops can also lead to `NotFound`, `NotPublic` or `Resolved`. (`public_drive_urls.py` never requests a `Location`, so this does not arise there.)
- `response.status_code is requests.codes.ok` is modelled as integer equality with 200. CPython caches small integers, so the identity test behaves as equality there.
- `urlsplit` is modelled only as far as the hostname goes. Several of its cases are not modelled:
  - the clean-up Python 3 does first: it strips leading C0 control characters and spaces, and removes every tab, carriage return and line feed anywhere in the URL. The model keeps them. So `https://accounts.goo<TAB>gle.com/` has the host `accounts.goo<TAB>gle.com` in the model, and a 200 there is `Resolved`, where Python 3 reads `accounts.google.com` and raises `NotPublicResourceException`;
  - IPv6 literals in brackets after the last `@`, which the model treats as having no hostname. Any other square bracket in the network location, userinfo included, makes Python 3 (3.11.4 and later) raise `ValueError`; the model gives no hostname there too (`UrlSplit.BracketedUserinfoHasNoHost`). Older Python 3 releases skip balanced brackets in the userinfo, as Python 2 does;
  - the check Python 3 makes on a non-ASCII network location: it raises `ValueError` when the NFKC normal form of the network location holds `/`, `?`, `#`, `@` or `:`. The model reads such a host as it is. For example, it reads `https://℀/` (`℀` normalizes to `a/c`) as having the host `℀`, and so accepts it as a redirect target;
  - lower-casing beyond ASCII.
- `public_drive_urls.py` imports `urlsplit` from Python 2's `urlparse`. The model follows Python 3's `urllib.parse` for both files. Python 2 differs in these ways, which the model of `public_drive_urls.py` does not follow:
  - An empty host with a port, as in `https://:443/x`, has the hostname `''` in Python 2 and no hostname in Python 3. Python 2 then finds no `google.com` in `''` and returns that `Location`; the model gives the hostname error.
  - Python 2 accepts a scheme that starts with a digit, and it does not split off a scheme when everything after the `:` is digits.
  - Python 2 reads the host inside square brackets; the model gives no hostname.
  - Python 2 raises only when the brackets are unbalanced, and then reads the host after the last `@`. So for `https://[x]@evil.com/` it reads the host `evil.com`; the model, like current Python 3, gives no hostname.
  - Python 2 does not do the clean-up of tabs, line breaks and leading control characters above; the model does not either.
- `ACCESS_URLS[hosting_type]` raises `KeyError` for an unknown type. That cannot happen in the model: the hosting type is a datatype with the four values the regex accepts.
- `ExportFormats.PDF`, `DOCX` and `PNG` are never read by the code, so they are not modelled. The format is any string, as in the source.
- The import shim and the empty `DriveDocumentResource` class of `public_drive_urls2.py` hold no logic, so they are not modelled.
- tests.py is not modelled. It calls `get_drive_resource_url_if_accessible`, which does not exist.
  - Its expectation that a repeated 302 to the sign-in host returns `None` does not hold for the loop. `ResourceFinder.EndlessRedirects` proves that such a chain ends in `NotFound` after 21 requests.
  - Its 200 case is covered by `ResourceFinder.ServedDirectly`.
  - Its missing-`Location` and 404 cases are covered by `ResourceFinder.StopsAtError`.
- setup.py is packaging metadata and is not modelled.
- The docstring of `DriveDocumentFinder` says that a 200 or a 404 raises a `BadUrlException`. No such exception exists: the code returns the access URL after a 200 and `None` after any other status but 302 (public_drive_urls.py:153-160). The model follows the code.
- The docstring of `DriveResourceFinder` says the loop fails "at the 20th time". The code allows counter values 0 to 20, which is 21 requests, and the model follows the code.
- "Resolves to anything at `accounts.google.com`" in the docstring of `DriveResourceFinder` means the URL that finally answers 200. The hosts of intermediate 302 hops are never checked, and every redirect is followed whatever its host (`ResourceFinder.RedirectFollowedAnywhere`, `ResourceFinder.NotPublicOnlyFromOk`).

=== FILE: document_finder.dfy ===
/**
 `public_drive_urls.py`, second half: `DriveDocumentFinder`, which issues a
 single request to an access URL and judges the answer. A 200 means the
 access URL is already the real location. A 302 is judged by its `Location`
 header: a host containing `google.com` is taken for a sign-in page. The
 `Location` is never requested itself. Any other status gives `None`.

 HTTP is the parameter `fetch`: the response a GET to a URL would get, with
 redirect following turned off.
 */
module DocumentFinder {
  import opened Wrappers
  import opened Text
  import opened UrlSplit
  import opened Http
  import DriveResource

  /** The module-level `LOGIN_REDIRECTION_HOST`, which `_is_valid_redirect_url` reads. */
  const LoginRedirectionHost: string := "google.com"

  /**
   How a call ends: a URL, the `None` the source returns, or one of the two
   exceptions it lets escape. `NotPublic` is `NotPublicResourceException`;
   `HostnameError` is the `AttributeError` from calling `.lower()` on a
   missing hostname, or the `ValueError` that `urlsplit` raises on a square
   bracket in the network location.
   */
  datatype Verdict = Url(url: string) | NoUrl | NotPublic | HostnameError

  /**
   `_is_valid_redirect_url`: whether the lower-cased host of `url` avoids
   `google.com` as a substring; `None` where the host cannot be read.
   */
  function IsValidRedirectUrl(url: string): (r: Option<bool>)
    ensures r.None? <==> LoweredHostname(url).None?
    ensures r == Some(true) <==> LoweredHostname(url).Some? && !IsSubstring(LoginRedirectionHost, LoweredHostname(url).value)
  {
    match LoweredHostname(url)
    case None => None
    case Some(host) => Some(!Contains(host, LoginRedirectionHost))
  }

  /** `_find_redirect_location`, given the `location` header of a 302 response. */
  function FindRedirectLocation(location: Option<string>): (v: Verdict)
    ensures v == NoUrl <==> location.None?
    ensures v == HostnameError <==> location.Some? && IsValidRedirectUrl(location.value).None?
    ensures v.Url? <==> location.Some? && IsValidRedirectUrl(location.value) == Some(true)
    ensures v.Url? ==> v.url == location.value
    ensures v == NotPublic <==> location.Some? && IsValidRedirectUrl(location.value) == Some(false)
  {
    match location
    case None => NoUrl
    case Some(possibleUrl) =>
      match IsValidRedirectUrl(possibleUrl)
      case None => HostnameError
      case Some(true) => Url(possibleUrl)
      case Some(false) => NotPublic
  }

  /**
   `try_resolve_url`: one request to `accessUrl`. The result is the access URL
   itself after a 200, a vetted `Location` after a 302, and `None` otherwise.
   */
  function TryResolveUrl(fetch: string -> Response, accessUrl: string): (v: Verdict)
    ensures fetch(accessUrl).status == Ok ==> v == Url(accessUrl)
    ensures fetch(accessUrl).status != Ok && fetch(accessUrl).status != Found ==> v == NoUrl
    ensures fetch(accessUrl).status == Found && fetch(accessUrl).location.None? ==> v == NoUrl
    ensures v.Url? ==>
      || (fetch(accessUrl).status == Ok && v.url == accessUrl)
      || (fetch(accessUrl).status == Found && fetch(accessUrl).location == Some(v.url)
          && IsValidRedirectUrl(v.url) == Some(true))
    ensures v == NotPublic ==>
      fetch(accessUrl).status == Found && fetch(accessUrl).location.Some?
      && IsValidRedirectUrl(fetch(accessUrl).location.value) == Some(false)
    ensures fetch(accessUrl).status == Found && fetch(accessUrl).location.Some? ==>
      var loc := fetch(accessUrl).location.value;
      && (IsValidRedirectUrl(loc) == Some(true) ==> v == Url(loc))
      && (IsValidRedirectUrl(loc) == Some(false) ==> v == NotPublic)
      && (IsValidRedirectUrl(loc).None? ==> v == HostnameError)
  {
    var response := fetch(accessUrl);
    if response.status == Found then
      FindRedirectLocation(response.location)
    else if response.status == Ok then
      Url(accessUrl)
    else
      NoUrl
  }

  /**
   `DriveDocumentFinder.from_share_url`: `None`, with no request made, when
   the share URL does not parse; otherwise the verdict on its access URL.
   */
  function FromShareUrl(fetch: string -> Response, sharedUrl: string, formatOverride: Option<string>): (v: Verdict)
    ensures DriveResource.Parse(sharedUrl).None? ==> v == NoUrl
    ensures DriveResource.Parse(sharedUrl).Some? ==>
      var l := DriveResource.Parse(sharedUrl).value;
      v == TryResolveUrl(fetch, DriveResource.NewResource(l.driveId, l.hostingType, formatOverride).accessUrl)
  {
    match DriveResource.ResourceFromShareUrl(sharedUrl, formatOverride)
    case None => NoUrl
    case Some(resource) => TryResolveUrl(fetch, resource.accessUrl)
  }

  /**
   Only one request is made: two transports that answer the access URL alike
   lead to the same verdict, whatever they answer for the `Location`.
   */
  lemma OneRequest(f1: string -> Response, f2: string -> Response, accessUrl: string)
    requires f1(accessUrl) == f2(accessUrl)
    ensures TryResolveUrl(f1, accessUrl) == TryResolveUrl(f2, accessUrl)
  {
  }

  /** The redirect check ignores case. */
  lemma ValidRedirectIgnoresCase(url: string)
    ensures IsValidRedirectUrl(Lower(url)) == IsValidRedirectUrl(url)
  {
    HostnameIgnoresCase(url);
    SameHostSameValidity(Lower(url), url);
  }

  /** The redirect check looks at nothing but the lower-cased hostname. */
  lemma SameHostSameValidity(u: string, v: string)
    requires LoweredHostname(u) == LoweredHostname(v)
    ensures IsValidRedirectUrl(u) == IsValidRedirectUrl(v)
  {
  }

  lemma GoogleHostChars(sub: string)
    requires forall i :: 0 <= i < |sub| ==> IsHostChar(sub[i])
    ensures forall i :: 0 <= i < |sub + ".google.com"| ==> IsHostChar((sub + ".google.com")[i])
  {
    var host := sub + ".google.com";
    forall i | 0 <= i < |host| ensures IsHostChar(host[i]) {
      if i >= |sub| {
        assert host[i] == ".google.com"[i - |sub|];
      }
    }
  }

  lemma GoogleHostContainsLoginHost(sub: string)
    ensures IsSubstring(LoginRedirectionHost, Lower(sub + ".google.com"))
  {
    LowerConcat(sub, ".google.com");
    LowerOfLower(".google.com");
    var lowered := Lower(sub) + ".google.com";
    assert lowered[|sub| + 1..|sub| + 11] == LoginRedirectionHost;
    assert OccursAt(lowered, LoginRedirectionHost, |sub| + 1);
  }

  /**
   Every host under `google.com` fails the check, not only the sign-in host:
   a redirect to `https://<sub>.google.com/...` gives `NotPublic`.
   */
  lemma GoogleSubdomainIsNotPublic(sub: string, path: string)
    requires |sub| > 0 && forall i :: 0 <= i < |sub| ==> IsHostChar(sub[i])
    requires path == [] || path[0] in NetlocDelims
    ensures FindRedirectLocation(Some("https://" + sub + ".google.com" + path)) == NotPublic
  {
    var host := sub + ".google.com";
    GoogleHostChars(sub);
    assert "https://" + sub + ".google.com" + path == "https" + "://" + host + path;
    HostnameOfAuthority("https", host, path);
    GoogleHostContainsLoginHost(sub);
  }

  /** A share URL whose access URL answers 200 resolves to that access URL. */
  lemma ShareUrlServedDirectly(fetch: string -> Response, l: DriveResource.ShareLink, formatOverride: Option<string>)
    requires DriveResource.ValidShareLink(l)
    requires fetch(DriveResource.NewResource(l.driveId, l.hostingType, formatOverride).accessUrl).status == Ok
    ensures FromShareUrl(fetch, DriveResource.Render(l), formatOverride)
      == Url(DriveResource.NewResource(l.driveId, l.hostingType, formatOverride).accessUrl)
  {
    DriveResource.ResourceFromRender(l, formatOverride);
  }
}

=== FILE: drive_resource.dfy ===
/**
 `public_drive_urls.py`, first half: reading a Google Drive share URL with
 `DRIVE_URL_REGEX` and turning the id and hosting type it yields into an
 access URL from the `ACCESS_URLS` templates (`DriveDocumentResource`).

 The regular expression is matched with `re.match`: it is anchored at the
 start and need not reach the end, so whatever follows the `/` after the id
 is accepted. Neither character class contains `/`, the alternatives of
 each group start with different characters, and the optional domain
 segment starts with `a`, which no hosting type does. So the match never
 depends on backtracking, and a left-to-right scan reproduces it.
 */
module DriveResource {
  import opened Wrappers
  import opened Text

  /** The hosting types the share URL regex accepts, in its alternation order. */
  datatype HostingType = File | Document | Presentation | Spreadsheets {

    /** The path segment that names the type, and the key into `ACCESS_URLS`. */
    function Name(): string
    {
      match this
      case File => "file"
      case Document => "document"
      case Presentation => "presentation"
      case Spreadsheets => "spreadsheets"
    }

    /** Membership in `NATIVE_GOOGLE_DOC_TYPES`: served by Google Docs, with an export format. */
    predicate IsNative()
    {
      !File?
    }
  }

  /** The two sub-domains a share URL may use. */
  datatype Host = Docs | Drive {
    function Name(): string
    {
      match this
      case Docs => "docs"
      case Drive => "drive"
    }
  }

  /**
   The parts of a share URL the regex tells apart: the sub-domain, the
   optional Google Apps domain, the hosting type (group 1), the drive id
   (group 2) and whatever follows the `/` after the id.
   */
  datatype ShareLink = ShareLink(host: Host, domain: Option<string>, hostingType: HostingType, driveId: string, tail: string)

  /** `[a-zA-Z0-9\-_]` */
  predicate IsIdChar(c: char)
  {
    IsAsciiLetter(c) || IsAsciiDigit(c) || c == '-' || c == '_'
  }

  /** `[a-zA-Z0-9\-.]` */
  predicate IsDomainChar(c: char)
  {
    IsAsciiLetter(c) || IsAsciiDigit(c) || c == '-' || c == '.'
  }

  /** The two character classes of the regex, each followed by `+`. */
  datatype CharClass = IdChars | DomainChars

  predicate InClass(c: char, cls: CharClass)
  {
    match cls
    case IdChars => IsIdChar(c)
    case DomainChars => IsDomainChar(c)
  }

  /** A non-empty run of characters of the class. */
  predicate IsRun(s: string, cls: CharClass)
  {
    |s| > 0 && forall i :: 0 <= i < |s| ==> InClass(s[i], cls)
  }

  /** What group 2 can capture. */
  predicate ValidDriveId(id: string)
  {
    IsRun(id, IdChars)
  }

  /** The share links the regex can match: a non-empty id and, if present, a non-empty domain. */
  predicate ValidShareLink(l: ShareLink)
  {
    && ValidDriveId(l.driveId)
    && (l.domain.Some? ==> IsRun(l.domain.value, DomainChars))
  }

  /** `https://(?:docs|drive)\.google\.com/` */
  function HostPrefix(h: Host): string
  {
    "https://" + h.Name() + ".google.com/"
  }

  /** `(?:a/[a-zA-Z0-9\-.]+/)?` */
  function DomainSegment(d: Option<string>): string
  {
    match d
    case None => ""
    case Some(name) => "a/" + name + "/"
  }

  /** `(file|document|presentation|spreadsheets)/d/` */
  function TypeSegment(t: HostingType): string
  {
    t.Name() + "/d/"
  }

  /** The share URL a link stands for. */
  function Render(l: ShareLink): string
  {
    HostPrefix(l.host) + DomainSegment(l.domain) + TypeSegment(l.hostingType) + l.driveId + "/" + l.tail
  }

  /** The length of the longest prefix of `s` inside the class (a greedy `+` before a `/`). */
  function Span(s: string, cls: CharClass): (n: nat)
    ensures n <= |s|
    ensures forall i :: 0 <= i < n ==> InClass(s[i], cls)
    ensures n < |s| ==> !InClass(s[n], cls)
  {
    if s == [] || !InClass(s[0], cls) then 0 else 1 + Span(s[1..], cls)
  }

  /** A run followed by a character outside the class spans exactly the run. */
  lemma SpanOfRun(run: string, rest: string, cls: CharClass)
    requires forall i :: 0 <= i < |run| ==> InClass(run[i], cls)
    requires rest == [] || !InClass(rest[0], cls)
    ensures Span(run + rest, cls) == |run|
  {
    var s := run + rest;
    assert forall i :: 0 <= i < |run| ==> s[i] == run[i];
    assert |run| < |s| ==> s[|run|] == rest[0];
  }

  /** Reads the scheme and sub-domain. */
  function MatchHost(s: string): (r: Option<(Host, string)>)
    ensures r.Some? ==> s == HostPrefix(r.value.0) + r.value.1
  {
    if HostPrefix(Docs) <= s then
      Some((Docs, s[|HostPrefix(Docs)|..]))
    else if HostPrefix(Drive) <= s then
      Some((Drive, s[|HostPrefix(Drive)|..]))
    else
      None
  }

  /** Reads the optional domain segment; the rest is returned untouched when it is absent. */
  function MatchDomain(s: string): (r: (Option<string>, string))
    ensures r.0.Some? ==> IsRun(r.0.value, DomainChars)
    ensures s == DomainSegment(r.0) + r.1
  {
    if |s| >= 2 && s[..2] == "a/" then
      var n := Span(s[2..], DomainChars);
      if 0 < n && 2 + n < |s| && s[2 + n] == '/' then
        assert forall i :: 0 <= i < n ==> s[2..2 + n][i] == s[2..][i];
        assert s == "a/" + s[2..2 + n] + "/" + s[3 + n..];
        (Some(s[2..2 + n]), s[3 + n..])
      else
        (None, s)
    else
      (None, s)
  }

  /** Reads the hosting type and the `/d/` after it, trying the alternatives in order. */
  function MatchType(s: string): (r: Option<(HostingType, string)>)
    ensures r.Some? ==> s == TypeSegment(r.value.0) + r.value.1
  {
    if TypeSegment(File) <= s then
      Some((File, s[|TypeSegment(File)|..]))
    else if TypeSegment(Document) <= s then
      Some((Document, s[|TypeSegment(Document)|..]))
    else if TypeSegment(Presentation) <= s then
      Some((Presentation, s[|TypeSegment(Presentation)|..]))
    else if TypeSegment(Spreadsheets) <= s then
      Some((Spreadsheets, s[|TypeSegment(Spreadsheets)|..]))
    else
      None
  }

  /** Reads the drive id and the mandatory `/` after it. */
  function MatchId(s: string): (r: Option<(string, string)>)
    ensures r.Some? ==> ValidDriveId(r.value.0) && s == r.value.0 + "/" + r.value.1
  {
    var n := Span(s, IdChars);
    if 0 < n < |s| && s[n] == '/' then
      assert forall i :: 0 <= i < n ==> s[..n][i] == s[i];
      assert s == s[..n] + "/" + s[n + 1..];
      Some((s[..n], s[n + 1..]))
    else
      None
  }

  /** Gluing the parts the stages read back together gives the rendered link. */
  lemma RenderOfParts(s: string, l: ShareLink, afterHost: string, afterDomain: string, afterType: string)
    requires s == HostPrefix(l.host) + afterHost
    requires afterHost == DomainSegment(l.domain) + afterDomain
    requires afterDomain == TypeSegment(l.hostingType) + afterType
    requires afterType == l.driveId + "/" + l.tail
    ensures s == Render(l)
  {
  }

  /**
   `DRIVE_URL_REGEX.match(s)`: the link it reads, or `None` where the regex
   does not match. A link read from `s` is a valid one and renders back to
   exactly `s`.
   */
  function Parse(s: string): (r: Option<ShareLink>)
    ensures r.Some? ==> ValidShareLink(r.value) && Render(r.value) == s
  {
    match MatchHost(s)
    case None => None
    case Some((host, afterHost)) =>
      var (domain, afterDomain) := MatchDomain(afterHost);
      match MatchType(afterDomain)
      case None => None
      case Some((hostingType, afterType)) =>
        match MatchId(afterType)
        case None => None
        case Some((driveId, tail)) =>
          var l := ShareLink(host, domain, hostingType, driveId, tail);
          RenderOfParts(s, l, afterHost, afterDomain, afterType);
          Some(l)
  }

  lemma MatchHostOf(h: Host, rest: string)
    ensures MatchHost(HostPrefix(h) + rest) == Some((h, rest))
  {
    var s := HostPrefix(h) + rest;
    if h == Drive {
      assert s[9] == 'r';
      assert !(HostPrefix(Docs) <= s);
    }
    assert s[|HostPrefix(h)|..] == rest;
  }

  /** Without a domain the rest starts with a hosting type, and no hosting type starts with `a`. */
  lemma MatchDomainOfNone(rest: string)
    requires |rest| > 0 && rest[0] != 'a'
    ensures MatchDomain(rest) == (None, rest)
  {
  }

  lemma MatchDomainOfSome(domain: string, rest: string)
    requires IsRun(domain, DomainChars)
    ensures MatchDomain("a/" + domain + "/" + rest) == (Some(domain), rest)
  {
    var s := "a/" + domain + "/" + rest;
    assert s[..2] == "a/";
    assert s[2..] == domain + ("/" + rest);
    SpanOfRun(domain, "/" + rest, DomainChars);
    assert s[2..2 + |domain|] == domain;
    assert s[3 + |domain|..] == rest;
  }

  lemma MatchDomainOf(d: Option<string>, rest: string)
    requires d.Some? ==> IsRun(d.value, DomainChars)
    requires |rest| > 0 && rest[0] != 'a'
    ensures MatchDomain(DomainSegment(d) + rest) == (d, rest)
  {
    match d
    case None =>
      assert DomainSegment(d) + rest == rest;
      MatchDomainOfNone(rest);
    case Some(name) =>
      assert DomainSegment(d) + rest == "a/" + name + "/" + rest;
      MatchDomainOfSome(name, rest);
  }

  lemma MatchTypeOf(t: HostingType, rest: string)
    ensures MatchType(TypeSegment(t) + rest) == Some((t, rest))
  {
    var s := TypeSegment(t) + rest;
    assert s[0] == t.Name()[0];
    assert s[|TypeSegment(t)|..] == rest;
  }

  lemma MatchIdOf(id: string, rest: string)
    requires ValidDriveId(id)
    ensures MatchId(id + "/" + rest) == Some((id, rest))
  {
    var s := id + "/" + rest;
    assert s == id + ("/" + rest);
    SpanOfRun(id, "/" + rest, IdChars);
    assert s[..|id|] == id;
    assert s[|id| + 1..] == rest;
  }

  lemma ParseOfStages(s: string, l: ShareLink, afterHost: string, afterDomain: string, afterType: string)
    requires MatchHost(s) == Some((l.host, afterHost))
    requires MatchDomain(afterHost) == (l.domain, afterDomain)
    requires MatchType(afterDomain) == Some((l.hostingType, afterType))
    requires MatchId(afterType) == Some((l.driveId, l.tail))
    ensures Parse(s) == Some(l)
  {
  }

  /** Every valid link is read back from the URL it renders to: group 1 and group 2 are exactly its type and id. */
  lemma ParseRender(l: ShareLink)
    requires ValidShareLink(l)
    ensures Parse(Render(l)) == Some(l)
  {
    var afterType := l.driveId + "/" + l.tail;
    var afterDomain := TypeSegment(l.hostingType) + afterType;
    var afterHost := DomainSegment(l.domain) + afterDomain;
    var s := HostPrefix(l.host) + afterHost;
    RenderOfParts(s, l, afterHost, afterDomain, afterType);
    MatchHostOf(l.host, afterHost);
    assert afterDomain[0] == l.hostingType.Name()[0];
    MatchDomainOf(l.domain, afterDomain);
    MatchTypeOf(l.hostingType, afterType);
    MatchIdOf(l.driveId, l.tail);
    ParseOfStages(s, l, afterHost, afterDomain, afterType);
  }

  /** `Parse` and `Render` are inverse: the regex matches exactly the rendered valid links. */
  lemma ParseIffRender(s: string, l: ShareLink)
    ensures Parse(s) == Some(l) <==> ValidShareLink(l) && Render(l) == s
  {
    if ValidShareLink(l) && Render(l) == s {
      ParseRender(l);
    }
  }

  /** The regex fails to match exactly the strings that render no valid link. */
  lemma ParseNone(s: string)
    ensures Parse(s).None? <==> forall l :: ValidShareLink(l) ==> Render(l) != s
  {
    if Parse(s).None? {
      forall l | ValidShareLink(l)
        ensures Render(l) != s
      {
        ParseRender(l);
      }
    }
  }

  /** `ExportFormats.DEFAULT` */
  const DefaultExportFormat: string := "pdf"

  /** The `file` entry of `ACCESS_URLS`, up to its only placeholder. */
  const FileUrlPrefix: string := "https://drive.google.com/" + "uc?export=download&id="

  /**
   A `DriveDocumentResource`: the drive id and hosting type it was built
   from, its `export_format` attribute (`None` for `file`) and its access URL.
   */
  datatype Resource = Resource(driveId: string, hostingType: HostingType, exportFormat: Option<string>, accessUrl: string)

  /** `_set_export_format`: the override when one is given, else the default `pdf`. */
  function ExportFormat(formatOverride: Option<string>): (format: string)
    ensures formatOverride.Some? ==> format == formatOverride.value
    ensures formatOverride.None? ==> format == DefaultExportFormat
  {
    formatOverride.GetOr(DefaultExportFormat)
  }

  /** What follows the id and its `/` in a native template: a marker that depends on the type only, then the format. */
  function ExportTail(t: HostingType, format: string): (tail: string)
    requires t.IsNative()
    ensures |tail| >= |format| && tail[|tail| - |format|..] == format
    ensures |tail| - |format| == if t == Presentation then 7 else 14
  {
    match t
    case Presentation => "export/" + format
    case _ => "export?format=" + format
  }

  /**
   `ACCESS_URLS[t].format(id, format)` for the three native types. Each
   template is a share link on the `docs` host, with the export request as
   the text after the id.
   */
  function NativeAccessUrl(t: HostingType, id: string, format: string): (url: string)
    requires t.IsNative()
    ensures url == Render(ShareLink(Docs, None, t, id, ExportTail(t, format)))
  {
    RenderDocsLink(t, id, ExportTail(t, format));
    match t
    case Document =>
      DocumentTemplate(id, format);
      "https://docs.google.com/document/d/" + id + "/export?format=" + format
    case Presentation =>
      PresentationTemplate(id, format);
      "https://docs.google.com/presentation/d/" + id + "/export/" + format
    case Spreadsheets =>
      SpreadsheetsTemplate(id, format);
      "https://docs.google.com/spreadsheets/d/" + id + "/export?format=" + format
  }

  /**
   The `DriveDocumentResource` constructor with `_set_access_url`: a native
   type gets an export format and the filled export template; `file` keeps
   `export_format` at `None` and its URL never mentions a format.
   */
  function NewResource(id: string, t: HostingType, formatOverride: Option<string>): (r: Resource)
    ensures r.driveId == id && r.hostingType == t
    ensures t == File ==> r.exportFormat == None && r.accessUrl == FileUrlPrefix + id
    ensures t.IsNative() ==> r.exportFormat == Some(ExportFormat(formatOverride))
    ensures t.IsNative() ==> r.accessUrl == NativeAccessUrl(t, id, ExportFormat(formatOverride))
  {
    if t.IsNative() then
      var format := ExportFormat(formatOverride);
      Resource(id, t, Some(format), NativeAccessUrl(t, id, format))
    else
      Resource(id, t, None, FileUrlPrefix + id)
  }

  /** `DriveDocumentResource.from_share_url`: `None` exactly when the regex does not match. */
  function ResourceFromShareUrl(shareUrl: string, formatOverride: Option<string>): (r: Option<Resource>)
    ensures r.Some? <==> Parse(shareUrl).Some?
    ensures r.Some? ==> ValidDriveId(r.value.driveId)
  {
    match Parse(shareUrl)
    case None => None
    case Some(l) => Some(NewResource(l.driveId, l.hostingType, formatOverride))
  }

  /** A share URL yields the resource named by exactly its own type and id. */
  lemma ResourceFromRender(l: ShareLink, formatOverride: Option<string>)
    requires ValidShareLink(l)
    ensures ResourceFromShareUrl(Render(l), formatOverride) == Some(NewResource(l.driveId, l.hostingType, formatOverride))
  {
    ParseRender(l);
  }

  lemma RenderDocsLink(t: HostingType, id: string, tail: string)
    ensures Render(ShareLink(Docs, None, t, id, tail)) == (HostPrefix(Docs) + TypeSegment(t)) + id + ("/" + tail)
  {
    assert Render(ShareLink(Docs, None, t, id, tail)) == HostPrefix(Docs) + "" + TypeSegment(t) + id + "/" + tail;
  }

  /** The literal start of each native template is the `docs` host prefix and the type segment. */
  lemma DocumentPrefix()
    ensures "https://docs.google.com/document/d/" == HostPrefix(Docs) + TypeSegment(Document)
  {
  }

  lemma PresentationPrefix()
    ensures "https://docs.google.com/presentation/d/" == HostPrefix(Docs) + TypeSegment(Presentation)
  {
  }

  lemma SpreadsheetsPrefix()
    ensures "https://docs.google.com/spreadsheets/d/" == HostPrefix(Docs) + TypeSegment(Spreadsheets)
  {
  }

  lemma ExportSplit(id: string, middle: string, format: string, head: string)
    requires |middle| > 0 && middle[0] == '/'
    ensures head + id + middle + format == head + id + ("/" + (middle[1..] + format))
  {
    assert middle == "/" + middle[1..];
  }

  lemma DocumentTemplate(id: string, format: string)
    ensures "https://docs.google.com/document/d/" + id + "/export?format=" + format
      == (HostPrefix(Docs) + TypeSegment(Document)) + id + ("/" + ExportTail(Document, format))
  {
    DocumentPrefix();
    ExportSplit(id, "/export?format=", format, "https://docs.google.com/document/d/");
  }

  lemma PresentationTemplate(id: string, format: string)
    ensures "https://docs.google.com/presentation/d/" + id + "/export/" + format
      == (HostPrefix(Docs) + TypeSegment(Presentation)) + id + ("/" + ExportTail(Presentation, format))
  {
    PresentationPrefix();
    ExportSplit(id, "/export/", format, "https://docs.google.com/presentation/d/");
  }

  lemma SpreadsheetsTemplate(id: string, format: string)
    ensures "https://docs.google.com/spreadsheets/d/" + id + "/export?format=" + format
      == (HostPrefix(Docs) + TypeSegment(Spreadsheets)) + id + ("/" + ExportTail(Spreadsheets, format))
  {
    SpreadsheetsPrefix();
    ExportSplit(id, "/export?format=", format, "https://docs.google.com/spreadsheets/d/");
  }

  /**
   Reading a native resource's access URL back as a share URL, with its own
   export format, rebuilds the same resource.
   */
  lemma NativeAccessUrlReparses(id: string, t: HostingType, formatOverride: Option<string>)
    requires ValidDriveId(id) && t.IsNative()
    ensures var r := NewResource(id, t, formatOverride);
      ResourceFromShareUrl(r.accessUrl, r.exportFormat) == Some(r)
  {
    var format := ExportFormat(formatOverride);
    var l := ShareLink(Docs, None, t, id, ExportTail(t, format));
    ResourceFromRender(l, Some(format));
  }

  /** The character a rendered link has right after its host prefix. */
  lemma RenderAfterHost(l: ShareLink)
    ensures Render(l)[|HostPrefix(l.host)|] in {'a', 'f', 'd', 'p', 's'}
  {
    var rest := DomainSegment(l.domain) + TypeSegment(l.hostingType) + l.driveId + "/" + l.tail;
    assert Render(l) == HostPrefix(l.host) + rest;
    assert rest[0] == (DomainSegment(l.domain) + TypeSegment(l.hostingType))[0];
    assert forall t: HostingType :: t.Name()[0] in {'f', 'd', 'p', 's'};
  }

  /** The `file` download URL renders no link: `uc?` stands where a link has a domain or a hosting type. */
  lemma FileAccessUrlIsNoRender(id: string, l: ShareLink)
    ensures Render(l) != FileUrlPrefix + id
  {
    var s := FileUrlPrefix + id;
    assert s[9] == 'r' && s[25] == 'u';
    RenderAfterHost(l);
    assert Render(l)[9] == HostPrefix(l.host)[9];
  }

  /** So the regex does not match it. */
  lemma FileAccessUrlIsNoShareUrl(id: string)
    ensures Parse(FileUrlPrefix + id).None?
  {
    forall l | ValidShareLink(l)
      ensures Render(l) != FileUrlPrefix + id
    {
      FileAccessUrlIsNoRender(id, l);
    }
    ParseNone(FileUrlPrefix + id);
  }

  lemma ExportTailInjective(t: HostingType, f1: string, f2: string)
    requires t.IsNative()
    requires ExportTail(t, f1) == ExportTail(t, f2)
    ensures f1 == f2
  {
  }

  /**
   Distinct resources get distinct access URLs: the URL determines the hosting
   type, the id and, for a native type, the export format.
   */
  lemma AccessUrlInjective(id1: string, t1: HostingType, f1: Option<string>, id2: string, t2: HostingType, f2: Option<string>)
    requires ValidDriveId(id1) && ValidDriveId(id2)
    requires NewResource(id1, t1, f1).accessUrl == NewResource(id2, t2, f2).accessUrl
    ensures id1 == id2 && t1 == t2
    ensures NewResource(id1, t1, f1).exportFormat == NewResource(id2, t2, f2).exportFormat
  {
    var u := NewResource(id1, t1, f1).accessUrl;
    if t1 == File && t2 == File {
      assert id1 == u[|FileUrlPrefix|..] == id2;
    } else if t1.IsNative() && t2.IsNative() {
      var l1 := ShareLink(Docs, None, t1, id1, ExportTail(t1, ExportFormat(f1)));
      var l2 := ShareLink(Docs, None, t2, id2, ExportTail(t2, ExportFormat(f2)));
      ParseRender(l1);
      ParseRender(l2);
      ExportTailInjective(t1, ExportFormat(f1), ExportFormat(f2));
    } else if t1 == File {
      FileAccessUrlIsNoShareUrl(id1);
      ParseRender(ShareLink(Docs, None, t2, id2, ExportTail(t2, ExportFormat(f2))));
    } else {
      FileAccessUrlIsNoShareUrl(id2);
      ParseRender(ShareLink(Docs, None, t1, id1, ExportTail(t1, ExportFormat(f1))));
    }
  }
}

=== FILE: finder_versions.dfy ===
/**
 How the two finders relate. `public_drive_urls.py` makes one request and
 rejects a `Location` whose host contains `google.com`.
 `public_drive_urls2.py` follows redirects and rejects the URL that answered
 200 only if its host contains `accounts.google.com`. The second check is
 the weaker of the two: every URL the first accepts, the second accepts too,
 and a host such as `www.google.com` separates them. Both finders start from
 an access URL, whose host is `docs.google.com` or `drive.google.com`. The
 first finder never checks that host, and the second accepts it.
 */
module FinderVersions {
  import opened Wrappers
  import opened Text
  import opened UrlSplit
  import opened Http
  import opened DriveResource
  import DocumentFinder
  import ResourceFinder

  /** Where the sign-in host of the second finder contains the one of the first. */
  lemma LoginHostsNest()
    ensures IsSubstring(DocumentFinder.LoginRedirectionHost, ResourceFinder.LoginRedirectionHost)
  {
    assert OccursAt(ResourceFinder.LoginRedirectionHost, DocumentFinder.LoginRedirectionHost, 9);
  }

  /**
   A URL the first finder accepts as a redirect target passes the second
   finder's check; one the second rejects, the first rejects too; and
   neither can read a host the other cannot.
   */
  lemma ValidRedirectIsAccessible(url: string)
    ensures DocumentFinder.IsValidRedirectUrl(url).None? <==> ResourceFinder.IsAccessibleLocation(url).None?
    ensures DocumentFinder.IsValidRedirectUrl(url) == Some(true) ==> ResourceFinder.IsAccessibleLocation(url) == Some(true)
    ensures ResourceFinder.IsAccessibleLocation(url) == Some(false) ==> DocumentFinder.IsValidRedirectUrl(url) == Some(false)
  {
    var host := LoweredHostname(url);
    if host.Some? && IsSubstring(ResourceFinder.LoginRedirectionHost, host.value) {
      LoginHostsNest();
      SubstringTransitive(DocumentFinder.LoginRedirectionHost, ResourceFinder.LoginRedirectionHost, host.value);
    }
  }

  /**
   The converse fails. A redirect to a host `<sub>.google.com` with a short
   `sub` (fewer than 8 characters, so the host is shorter than
   `accounts.google.com`), such as `https://www.google.com/`, is
   `NotPublic` to the first finder. The second finder accepts it.
   */
  lemma ShortGoogleSubdomainSeparatesFinders(sub: string, path: string)
    requires 0 < |sub| < 8 && forall i :: 0 <= i < |sub| ==> IsHostChar(sub[i])
    requires path == [] || path[0] in NetlocDelims
    ensures var url := "https://" + sub + ".google.com" + path;
      && DocumentFinder.FindRedirectLocation(Some(url)) == DocumentFinder.NotPublic
      && ResourceFinder.IsAccessibleLocation(url) == Some(true)
  {
    var url := "https://" + sub + ".google.com" + path;
    DocumentFinder.GoogleSubdomainIsNotPublic(sub, path);
    GoogleUrlHostname(sub, path);
    ShortHostIsNoLoginHost(Lower(sub + ".google.com"));
  }

  lemma GoogleUrlHostname(sub: string, path: string)
    requires 0 < |sub| && forall i :: 0 <= i < |sub| ==> IsHostChar(sub[i])
    requires path == [] || path[0] in NetlocDelims
    ensures LoweredHostname("https://" + sub + ".google.com" + path) == Some(Lower(sub + ".google.com"))
  {
    var host := sub + ".google.com";
    DocumentFinder.GoogleHostChars(sub);
    assert "https://" + sub + ".google.com" + path == "https" + "://" + host + path;
    HostnameOfAuthority("https", host, path);
  }

  lemma ShortHostIsNoLoginHost(host: string)
    requires |host| < |ResourceFinder.LoginRedirectionHost|
    ensures !IsSubstring(ResourceFinder.LoginRedirectionHost, host)
  {
    NotSubstringOfShort(host, ResourceFinder.LoginRedirectionHost);
  }

  /** The sub-domain an access URL is served from: `drive` for `file`, `docs` for the native types. */
  function AccessHost(t: HostingType): (h: Host)
    ensures h == Drive <==> t == File
  {
    if t == File then Drive else Docs
  }

  lemma HostNameChars(h: Host)
    ensures 0 < |h.Name()| < 8 && forall i :: 0 <= i < |h.Name()| ==> IsHostChar(h.Name()[i])
  {
  }

  lemma HostPrefixSplit(h: Host, rest: string)
    ensures HostPrefix(h) + rest == "https://" + h.Name() + ".google.com" + ("/" + rest)
  {
  }

  lemma FilePrefixAfterHost()
    ensures FileUrlPrefix == HostPrefix(Drive) + "uc?export=download&id="
  {
    assert HostPrefix(Drive) == "https://drive.google.com/";
  }

  lemma FileUrlAfterHost(id: string)
    ensures FileUrlPrefix + id == HostPrefix(Drive) + ("uc?export=download&id=" + id)
  {
    FilePrefixAfterHost();
  }

  lemma RenderAfterPrefix(l: ShareLink)
    ensures Render(l) == HostPrefix(l.host) + (DomainSegment(l.domain) + TypeSegment(l.hostingType) + l.driveId + "/" + l.tail)
  {
  }

  /** Every access URL starts with the prefix of its sub-domain. */
  lemma AccessUrlAfterHost(id: string, t: HostingType, formatOverride: Option<string>) returns (rest: string)
    ensures NewResource(id, t, formatOverride).accessUrl == HostPrefix(AccessHost(t)) + rest
  {
    if t == File {
      rest := "uc?export=download&id=" + id;
      FileUrlAfterHost(id);
    } else {
      var format := ExportFormat(formatOverride);
      var l := ShareLink(Docs, None, t, id, ExportTail(t, format));
      RenderAfterPrefix(l);
      rest := DomainSegment(l.domain) + TypeSegment(l.hostingType) + l.driveId + "/" + l.tail;
    }
  }

  /** The host either finder reads off an access URL is `drive.google.com` or `docs.google.com`. */
  lemma AccessUrlHostname(id: string, t: HostingType, formatOverride: Option<string>)
    ensures LoweredHostname(NewResource(id, t, formatOverride).accessUrl) == Some(Lower(AccessHost(t).Name() + ".google.com"))
  {
    var h := AccessHost(t);
    var rest := AccessUrlAfterHost(id, t, formatOverride);
    HostPrefixSplit(h, rest);
    HostNameChars(h);
    GoogleUrlHostname(h.Name(), "/" + rest);
  }

  /**
   The second finder accepts every access URL; the first finder's redirect
   check would reject every one, which does not matter there, since an
   access URL that answers 200 is returned unchecked.
   */
  lemma AccessUrlChecks(id: string, t: HostingType, formatOverride: Option<string>)
    ensures ResourceFinder.IsAccessibleLocation(NewResource(id, t, formatOverride).accessUrl) == Some(true)
    ensures DocumentFinder.IsValidRedirectUrl(NewResource(id, t, formatOverride).accessUrl) == Some(false)
  {
    var url := NewResource(id, t, formatOverride).accessUrl;
    var h := AccessHost(t);
    AccessUrlHostname(id, t, formatOverride);
    HostNameChars(h);
    ShortHostIsNoLoginHost(Lower(h.Name() + ".google.com"));
    DocumentFinder.GoogleHostContainsLoginHost(h.Name());
  }

  /** An access URL that answers 200 is the result of both finders. */
  lemma ServedAccessUrlAgrees(fetch: string -> Response, id: string, t: HostingType, formatOverride: Option<string>)
    requires fetch(NewResource(id, t, formatOverride).accessUrl).status == Ok
    ensures var url := NewResource(id, t, formatOverride).accessUrl;
      && DocumentFinder.TryResolveUrl(fetch, url) == DocumentFinder.Url(url)
      && ResourceFinder.Resolve(fetch, url) == ResourceFinder.Resolved(url)
  {
    var url := NewResource(id, t, formatOverride).accessUrl;
    AccessUrlChecks(id, t, formatOverride);
    ResourceFinder.ServedDirectly(fetch, url);
  }

  /**
   A redirect the first finder accepts, to a target that then answers 200,
   is followed by the second finder to the same URL.
   */
  lemma AcceptedRedirectAgrees(fetch: string -> Response, url: string, target: string)
    requires fetch(url) == Response(Found, Some(target))
    requires fetch(target).status == Ok
    requires DocumentFinder.TryResolveUrl(fetch, url) == DocumentFinder.Url(target)
    ensures ResourceFinder.Resolve(fetch, url) == ResourceFinder.Resolved(target)
  {
    ValidRedirectIsAccessible(target);
    ResourceFinder.RedirectFollowedAnywhere(fetch, url, target, ResourceFinder.FirstPass);
    ResourceFinder.ServedAt(fetch, target, ResourceFinder.FirstPass + 1);
  }

  /**
   A redirect that ends on a page the second finder calls not public,
   reached in one hop, is not public to the first finder either.
   */
  lemma RejectedRedirectAgrees(fetch: string -> Response, url: string, target: string)
    requires fetch(url) == Response(Found, Some(target))
    requires fetch(target).status == Ok
    requires ResourceFinder.Resolve(fetch, url) == ResourceFinder.NotPublic
    ensures DocumentFinder.TryResolveUrl(fetch, url) == DocumentFinder.NotPublic
  {
    ResourceFinder.RedirectFollowedAnywhere(fetch, url, target, ResourceFinder.FirstPass);
    ResourceFinder.ServedAt(fetch, target, ResourceFinder.FirstPass + 1);
    ValidRedirectIsAccessible(target);
  }
}

=== FILE: http.dfy ===
/**
 The part of an HTTP response that the finders look at. Requests are made
 with redirect following turned off, so a response is either final or a
 redirect that carries its target in the `Location` header.
 */
module Http {
  import opened Wrappers

  datatype Response = Response(status: int, location: Option<string>)

  /** `requests.codes.ok` */
  const Ok: int := 200

  /** The only redirect status either finder follows. */
  const Found: int := 302
}

=== FILE: resource_finder.dfy ===
/**
 `public_drive_urls2.py`: `DriveResourceFinder.try_resolve_url`, which
 follows a chain of 302 redirects by hand. The counter starts at 0, and the
 loop runs while it is at most 20. So there are at most 21 requests, and a
 chain that is still redirecting after the last of them fails. A 302 is
 followed to its `Location` whatever the host. Only a 200 ends the loop
 successfully, and then the host of the URL that answered is checked
 against the sign-in host `accounts.google.com`.

 HTTP is the parameter `fetch`: the response a GET to a URL would get, with
 redirect following turned off. The session the source keeps is not
 modelled.
 */
module ResourceFinder {
  import opened Wrappers
  import opened Text
  import opened UrlSplit
  import opened Http

  /** This module's `LOGIN_REDIRECTION_HOST`. */
  const LoginRedirectionHost: string := "accounts.google.com"

  /** The largest counter value for which the loop still issues a request. */
  const MaxRedirection: nat := 20

  /** The counter value of the first pass. */
  const FirstPass: nat := 0

  /**
   How a call ends: the URL that answered 200, or one of the exceptions that
   escape. `NotPublic` is `NotPublicResourceException`, `NotFound` is
   `ResourceNotFoundException`, and `HostnameError` is the `AttributeError`
   from calling `.lower()` on a missing hostname, or the `ValueError` that
   `urlsplit` raises on a square bracket in the network location.
   */
  datatype Outcome = Resolved(url: string) | NotPublic | NotFound | HostnameError

  /**
   `is_accessible_location`: whether the lower-cased host of `url` avoids the
   sign-in host as a substring; `None` where the host cannot be read.
   */
  function IsAccessibleLocation(url: string): (r: Option<bool>)
    ensures r.None? <==> LoweredHostname(url).None?
    ensures r == Some(true) <==>
      LoweredHostname(url).Some? && !IsSubstring(LoginRedirectionHost, LoweredHostname(url).value)
    ensures r == Some(false) <==>
      LoweredHostname(url).Some? && IsSubstring(LoginRedirectionHost, LoweredHostname(url).value)
  {
    match LoweredHostname(url)
    case None => None
    case Some(host) => Some(!Contains(host, LoginRedirectionHost))
  }

  /** What a 200 on `url` leads to: `url` itself, unless it is on the sign-in host. */
  function CheckAccessible(url: string): (o: Outcome)
    ensures o == Resolved(url) <==> IsAccessibleLocation(url) == Some(true)
    ensures o == NotPublic <==> IsAccessibleLocation(url) == Some(false)
    ensures o == HostnameError <==> IsAccessibleLocation(url).None?
  {
    match IsAccessibleLocation(url)
    case None => HostnameError
    case Some(true) => Resolved(url)
    case Some(false) => NotPublic
  }

  /** `get_redirect_location`: the `Location` header; `None` is the `ResourceNotFoundException` it raises. */
  function GetRedirectLocation(response: Response): (next: Option<string>)
    ensures next.None? <==> response.location.None?
    ensures next.Some? ==> Some(next.value) == response.location
  {
    response.location
  }

  /** Where the redirect loop stops: at the URL that answered 200, or nowhere. */
  datatype Stop = Answered(url: string) | Failed

  /**
   The redirect loop of `try_resolve_url`, from the pass with counter
   `redirection` and current URL `url` on, without the host check a 200
   triggers (`Resolve` adds it).
   */
  function Chase(fetch: string -> Response, url: string, redirection: nat): (stop: Stop)
    ensures redirection > MaxRedirection ==> stop == Failed
    ensures stop.Answered? ==> fetch(stop.url).status == Ok
    decreases MaxRedirection + 1 - redirection
  {
    if redirection > MaxRedirection then
      Failed
    else
      var response := fetch(url);
      if response.status == Ok then
        Answered(url)
      else if response.status == Found then
        match GetRedirectLocation(response)
        case None => Failed
        case Some(next) => Chase(fetch, next, redirection + 1)
      else
        Failed
  }

  /** `try_resolve_url(url)`: the host of the URL that answered 200 is checked; a failed loop is `NotFound`. */
  function Resolve(fetch: string -> Response, url: string): (o: Outcome)
    ensures o.Resolved? ==> fetch(o.url).status == Ok && IsAccessibleLocation(o.url) == Some(true)
    ensures o == NotFound <==> Chase(fetch, url, FirstPass) == Failed
  {
    match Chase(fetch, url, FirstPass)
    case Answered(last) => CheckAccessible(last)
    case Failed => NotFound
  }

  /**
   The URLs the loop requests, in order: it starts at `url`, and there are
   at most as many as passes left (`RequestsChain` states how they link).
   */
  function Requests(fetch: string -> Response, url: string, redirection: nat): (rs: seq<string>)
    ensures redirection <= MaxRedirection ==> 1 <= |rs| <= MaxRedirection + 1 - redirection
    ensures redirection > MaxRedirection ==> rs == []
    ensures |rs| > 0 ==> rs[0] == url
    decreases MaxRedirection + 1 - redirection
  {
    if redirection > MaxRedirection then
      []
    else
      var response := fetch(url);
      if response.status == Found && response.location.Some? then
        [url] + Requests(fetch, response.location.value, redirection + 1)
      else
        [url]
  }


  /** Each URL of `rs` after the first is the `Location` of a 302 to the one before. */
  predicate Linked(fetch: string -> Response, rs: seq<string>)
  {
    forall k :: 0 <= k < |rs| - 1 ==> fetch(rs[k]).status == Found && fetch(rs[k]).location == Some(rs[k + 1])
  }

  /** A 302 to the head of a linked chain extends it by one URL in front. */
  lemma LinkedCons(fetch: string -> Response, url: string, rest: seq<string>)
    requires Linked(fetch, rest)
    requires |rest| > 0 && fetch(url) == Response(Found, Some(rest[0]))
    ensures Linked(fetch, [url] + rest)
  {
    var rs := [url] + rest;
    forall k | 0 <= k < |rs| - 1
      ensures fetch(rs[k]).status == Found && fetch(rs[k]).location == Some(rs[k + 1])
    {
      if k > 0 {
        assert rs[k] == rest[k - 1] && rs[k + 1] == rest[k];
      }
    }
  }

  /** The requested URLs form a chain of 302s. */
  lemma {:induction false} RequestsChain(fetch: string -> Response, url: string, redirection: nat)
    ensures Linked(fetch, Requests(fetch, url, redirection))
    decreases MaxRedirection + 1 - redirection
  {
    if redirection <= MaxRedirection {
      var response := fetch(url);
      if response.status == Found && response.location.Some? {
        var next := response.location.value;
        RedirectFollowedAnywhere(fetch, url, next, redirection);
        var rest := Requests(fetch, next, redirection + 1);
        if rest != [] {
          RequestsChain(fetch, next, redirection + 1);
          LinkedCons(fetch, url, rest);
        }
      }
    }
  }

  /**
   The loop stops at the last URL of the chain: it answered there if that
   response was a 200, and failed otherwise (an error status, a 302 without
   `Location`, or a 302 on the 21st request).
   */
  lemma {:induction false} StopsAtLastRequest(fetch: string -> Response, url: string, redirection: nat)
    requires redirection <= MaxRedirection
    ensures var rs := Requests(fetch, url, redirection);
      var last := rs[|rs| - 1];
      Chase(fetch, url, redirection) == if fetch(last).status == Ok then Answered(last) else Failed
    decreases MaxRedirection + 1 - redirection
  {
    var response := fetch(url);
    if response.status == Ok {
      ServedAt(fetch, url, redirection);
    } else if response.status == Found && response.location.Some? {
      if redirection < MaxRedirection {
        LastOfRedirect(fetch, url, response.location.value, redirection);
        StopsAtLastRequest(fetch, response.location.value, redirection + 1);
      } else {
        LastRedirectFails(fetch, url, response.location.value);
      }
    } else {
      FailsAt(fetch, url, redirection);
    }
  }

  /** A followed 302 leaves the last request and the stop of the loop as they are from its target on. */
  lemma LastOfRedirect(fetch: string -> Response, url: string, next: string, redirection: nat)
    requires redirection < MaxRedirection
    requires fetch(url) == Response(Found, Some(next))
    ensures var rs := Requests(fetch, url, redirection);
      var rest := Requests(fetch, next, redirection + 1);
      rs[|rs| - 1] == rest[|rest| - 1] && Chase(fetch, url, redirection) == Chase(fetch, next, redirection + 1)
  {
    RedirectFollowedAnywhere(fetch, url, next, redirection);
    var rest := Requests(fetch, next, redirection + 1);
    assert Requests(fetch, url, redirection)[|rest|] == rest[|rest| - 1];
  }

  /** A 302 on the 21st request is not followed: the loop fails there. */
  lemma LastRedirectFails(fetch: string -> Response, url: string, next: string)
    requires fetch(url) == Response(Found, Some(next))
    ensures Requests(fetch, url, MaxRedirection) == [url]
    ensures Chase(fetch, url, MaxRedirection) == Failed
  {
    RedirectFollowedAnywhere(fetch, url, next, MaxRedirection);
  }

  /**
   The outcome is decided by the last URL requested: a 200 there is judged
   by its host, and anything else is `NotFound`.
   */
  lemma OutcomeOfLastRequest(fetch: string -> Response, url: string)
    ensures var rs := Requests(fetch, url, FirstPass);
      var last := rs[|rs| - 1];
      Resolve(fetch, url) == if fetch(last).status == Ok then CheckAccessible(last) else NotFound
  {
    StopsAtLastRequest(fetch, url, FirstPass);
  }

  /**
   A resolved URL is the last one requested, and it answered 200: either the
   start URL or a `Location` some 302 of the chain pointed to.
   */
  lemma ResolvedIsLastRequest(fetch: string -> Response, url: string)
    ensures var rs := Requests(fetch, url, FirstPass);
      Resolve(fetch, url).Resolved? ==>
        && Resolve(fetch, url).url == rs[|rs| - 1]
        && fetch(Resolve(fetch, url).url).status == Ok
        && IsAccessibleLocation(Resolve(fetch, url).url) == Some(true)
        && (Resolve(fetch, url).url == url || exists k :: 0 <= k < |rs| - 1 && fetch(rs[k]).location == Some(Resolve(fetch, url).url))
  {
    var rs := Requests(fetch, url, FirstPass);
    var o := Resolve(fetch, url);
    if o.Resolved? {
      StopsAtLastRequest(fetch, url, FirstPass);
      assert o.url == rs[|rs| - 1];
      if |rs| > 1 {
        RequestsChain(fetch, url, FirstPass);
        var k := |rs| - 2;
        assert fetch(rs[k]).location == Some(o.url);
      }
    }
  }

  /** `NotPublic` comes only from a 200 on the last URL of the chain, whose host holds the sign-in host. */
  lemma NotPublicOnlyFromOk(fetch: string -> Response, url: string)
    ensures var rs := Requests(fetch, url, FirstPass);
      Resolve(fetch, url) == NotPublic <==>
        fetch(rs[|rs| - 1]).status == Ok && IsAccessibleLocation(rs[|rs| - 1]) == Some(false)
  {
    StopsAtLastRequest(fetch, url, FirstPass);
  }

  /**
   The loop reads the transport only at the URLs it requests: two transports
   that agree there give the same requests and the same stop.
   */
  lemma {:induction false} DependsOnlyOnRequests(f1: string -> Response, f2: string -> Response, url: string, redirection: nat)
    requires forall u :: u in Requests(f1, url, redirection) ==> f1(u) == f2(u)
    ensures Requests(f1, url, redirection) == Requests(f2, url, redirection)
    ensures Chase(f1, url, redirection) == Chase(f2, url, redirection)
    decreases MaxRedirection + 1 - redirection
  {
    if redirection <= MaxRedirection {
      assert f1(url) == f2(url);
      var response := f1(url);
      if response.status == Found && response.location.Some? {
        var rest := Requests(f1, response.location.value, redirection + 1);
        assert forall u :: u in rest ==> u in Requests(f1, url, redirection);
        DependsOnlyOnRequests(f1, f2, response.location.value, redirection + 1);
      }
    }
  }

  /** Two transports that agree on the requested URLs give the same outcome. */
  lemma SameRequestsSameOutcome(f1: string -> Response, f2: string -> Response, url: string)
    requires forall u :: u in Requests(f1, url, FirstPass) ==> f1(u) == f2(u)
    ensures Requests(f1, url, FirstPass) == Requests(f2, url, FirstPass)
    ensures Resolve(f1, url) == Resolve(f2, url)
  {
    DependsOnlyOnRequests(f1, f2, url, FirstPass);
  }

  /**
   A transport that always redirects somewhere makes the loop issue all 21
   requests and then fail.
   */
  lemma {:induction false} EndlessRedirectsFail(fetch: string -> Response, url: string, redirection: nat)
    requires forall u :: fetch(u).status == Found && fetch(u).location.Some?
    requires redirection <= MaxRedirection + 1
    ensures |Requests(fetch, url, redirection)| == MaxRedirection + 1 - redirection
    ensures Chase(fetch, url, redirection) == Failed
    decreases MaxRedirection + 1 - redirection
  {
    if redirection <= MaxRedirection {
      EndlessRedirectsFail(fetch, fetch(url).location.value, redirection + 1);
    }
  }

  /** Endless redirects: 21 requests, then `NotFound`. */
  lemma EndlessRedirects(fetch: string -> Response, url: string)
    requires forall u :: fetch(u).status == Found && fetch(u).location.Some?
    ensures |Requests(fetch, url, FirstPass)| == MaxRedirection + 1
    ensures Resolve(fetch, url) == NotFound
  {
    EndlessRedirectsFail(fetch, url, FirstPass);
  }

  /** The 302 target is requested next whatever its host, even the sign-in host. */
  lemma RedirectFollowedAnywhere(fetch: string -> Response, url: string, next: string, redirection: nat)
    requires redirection <= MaxRedirection
    requires fetch(url) == Response(Found, Some(next))
    ensures Chase(fetch, url, redirection) == Chase(fetch, next, redirection + 1)
    ensures Requests(fetch, url, redirection) == [url] + Requests(fetch, next, redirection + 1)
  {
  }

  /** A 200 ends the loop at the URL that answered. */
  lemma ServedAt(fetch: string -> Response, url: string, redirection: nat)
    requires redirection <= MaxRedirection
    requires fetch(url).status == Ok
    ensures Chase(fetch, url, redirection) == Answered(url)
    ensures Requests(fetch, url, redirection) == [url]
  {
  }

  /** Any status but 200 or 302, and a 302 without `Location`, make the loop fail at once. */
  lemma FailsAt(fetch: string -> Response, url: string, redirection: nat)
    requires redirection <= MaxRedirection
    requires fetch(url).status != Ok
    requires fetch(url).status != Found || fetch(url).location.None?
    ensures Chase(fetch, url, redirection) == Failed
    ensures Requests(fetch, url, redirection) == [url]
  {
  }

  /** Any status but 200 or 302, and a 302 without `Location`, end the loop at once with `NotFound`. */
  lemma StopsAtError(fetch: string -> Response, url: string)
    requires fetch(url).status != Ok
    requires fetch(url).status != Found || fetch(url).location.None?
    ensures Resolve(fetch, url) == NotFound
    ensures Requests(fetch, url, FirstPass) == [url]
  {
  }

  /** A 200 on the first request resolves to that URL exactly when its host is not the sign-in host. */
  lemma ServedDirectly(fetch: string -> Response, url: string)
    requires fetch(url).status == Ok
    ensures Requests(fetch, url, FirstPass) == [url]
    ensures Resolve(fetch, url) == CheckAccessible(url)
  {
  }

  /**
   Userinfo in front of a host does not hide it: the host is read after the
   last `@`, so a 200 on a host that contains the sign-in host is
   `NotPublic` whatever bracket-free userinfo comes first.
   */
  lemma UserinfoDoesNotHideSignIn(fetch: string -> Response, userinfo: string, host: string, path: string)
    requires forall i :: 0 <= i < |userinfo| ==> userinfo[i] !in NetlocDelims
    requires !Has(userinfo, Brackets)
    requires |host| > 0 && forall i :: 0 <= i < |host| ==> IsHostChar(host[i])
    requires IsSubstring(LoginRedirectionHost, Lower(host))
    requires path == [] || path[0] in NetlocDelims
    requires fetch("https://" + userinfo + "@" + host + path).status == Ok
    ensures Resolve(fetch, "https://" + userinfo + "@" + host + path) == NotPublic
  {
    var url := "https://" + userinfo + "@" + host + path;
    SignInHostAfterUserinfo(userinfo, host, path);
    ServedDirectly(fetch, url);
  }

  lemma SignInHostAfterUserinfo(userinfo: string, host: string, path: string)
    requires forall i :: 0 <= i < |userinfo| ==> userinfo[i] !in NetlocDelims
    requires !Has(userinfo, Brackets)
    requires |host| > 0 && forall i :: 0 <= i < |host| ==> IsHostChar(host[i])
    requires IsSubstring(LoginRedirectionHost, Lower(host))
    requires path == [] || path[0] in NetlocDelims
    ensures IsAccessibleLocation("https://" + userinfo + "@" + host + path) == Some(false)
  {
    var url := "https://" + userinfo + "@" + host + path;
    assert url == "https" + "://" + userinfo + "@" + host + path;
    HostnameAfterUserinfo("https", userinfo, host, path);
  }

  /**
   A square bracket in the userinfo makes `urlsplit` raise before any host
   is read: a 200 there ends in the error, whatever the host.
   */
  lemma BracketedUserinfoRaises(fetch: string -> Response, userinfo: string, host: string, path: string)
    requires forall i :: 0 <= i < |userinfo| ==> userinfo[i] !in NetlocDelims
    requires Has(userinfo, Brackets)
    requires forall i :: 0 <= i < |host| ==> IsHostChar(host[i])
    requires path == [] || path[0] in NetlocDelims
    requires fetch("https://" + userinfo + "@" + host + path).status == Ok
    ensures Resolve(fetch, "https://" + userinfo + "@" + host + path) == HostnameError
  {
    var url := "https://" + userinfo + "@" + host + path;
    assert url == "https" + "://" + userinfo + "@" + host + path;
    BracketedUserinfoHasNoHost("https", userinfo, host, path);
    ServedDirectly(fetch, url);
  }

  /** The sign-in check ignores case. */
  lemma AccessibleIgnoresCase(url: string)
    ensures IsAccessibleLocation(Lower(url)) == IsAccessibleLocation(url)
  {
    HostnameIgnoresCase(url);
    SameHostSameAccess(Lower(url), url);
  }

  /** The sign-in check looks at nothing but the lower-cased hostname. */
  lemma SameHostSameAccess(u: string, v: string)
    requires LoweredHostname(u) == LoweredHostname(v)
    ensures IsAccessibleLocation(u) == IsAccessibleLocation(v)
  {
  }

  /**
   `try_resolve_url` as written: a loop that issues at most 21 requests. It
   returns the outcome; the ghost `requested`, which the source does not
   have, records the URLs it requested, in order.
   */
  method TryResolveUrl(fetch: string -> Response, url: string) returns (o: Outcome, ghost requested: seq<string>)
    ensures o == Resolve(fetch, url)
    ensures requested == Requests(fetch, url, FirstPass)
    ensures 1 <= |requested| <= MaxRedirection + 1
  {
    var current := url;
    var redirection: nat := FirstPass;
    requested := [];
    while redirection <= MaxRedirection
      invariant redirection <= MaxRedirection + 1
      invariant |requested| == redirection
      invariant Chase(fetch, current, redirection) == Chase(fetch, url, FirstPass)
      invariant requested + Requests(fetch, current, redirection) == Requests(fetch, url, FirstPass)
      decreases MaxRedirection + 1 - redirection
    {
      var response := fetch(current);
      if response.status == Ok {
        ExitAt(fetch, url, current, redirection, requested);
        requested := requested + [current];
        o := CheckAccessible(current);
        return;
      } else if response.status == Found {
        var next := GetRedirectLocation(response);
        if next.None? {
          ExitAt(fetch, url, current, redirection, requested);
          requested := requested + [current];
          o := NotFound;
          return;
        }
        FollowAt(fetch, url, current, next.value, redirection, requested);
        requested := requested + [current];
        current := next.value;
        redirection := redirection + 1;
      } else {
        ExitAt(fetch, url, current, redirection, requested);
        requested := requested + [current];
        o := NotFound;
        return;
      }
    }
    assert Requests(fetch, current, redirection) == [];
    o := NotFound;
  }

  /** A pass of the loop that returns: a 200, or a status that is no followable 302. */
  lemma ExitAt(fetch: string -> Response, url: string, current: string, redirection: nat, requested: seq<string>)
    requires redirection <= MaxRedirection
    requires Chase(fetch, current, redirection) == Chase(fetch, url, FirstPass)
    requires requested + Requests(fetch, current, redirection) == Requests(fetch, url, FirstPass)
    requires fetch(current).status == Ok || fetch(current).status != Found || fetch(current).location.None?
    ensures requested + [current] == Requests(fetch, url, FirstPass)
    ensures fetch(current).status == Ok ==> Resolve(fetch, url) == CheckAccessible(current)
    ensures fetch(current).status != Ok ==> Resolve(fetch, url) == NotFound
  {
    if fetch(current).status == Ok {
      ServedAt(fetch, current, redirection);
    } else {
      FailsAt(fetch, current, redirection);
    }
  }

  /** A pass of the loop that follows a 302 keeps the loop's invariants. */
  lemma FollowAt(fetch: string -> Response, url: string, current: string, next: string, redirection: nat, requested: seq<string>)
    requires redirection <= MaxRedirection
    requires fetch(current).status == Found && fetch(current).location == Some(next)
    requires Chase(fetch, current, redirection) == Chase(fetch, url, FirstPass)
    requires requested + Requests(fetch, current, redirection) == Requests(fetch, url, FirstPass)
    ensures Chase(fetch, next, redirection + 1) == Chase(fetch, url, FirstPass)
    ensures (requested + [current]) + Requests(fetch, next, redirection + 1) == Requests(fetch, url, FirstPass)
  {
    RedirectFollowedAnywhere(fetch, current, next, redirection);
    AppendAssoc(requested, current, Requests(fetch, next, redirection + 1));
  }

  lemma AppendAssoc(a: seq<string>, x: string, b: seq<string>)
    ensures (a + [x]) + b == a + ([x] + b)
  {
  }
}

=== FILE: text.dfy ===
/**
 Character classes, ASCII lower-casing, first-occurrence search and
 substring containment over `string` (a `seq<char>`): the pieces of
 Python's `str` behaviour that the URL logic relies on.
 */
module Text {

  predicate IsAsciiUpper(c: char) { 'A' <= c <= 'Z' }

  predicate IsAsciiLower(c: char) { 'a' <= c <= 'z' }

  predicate IsAsciiLetter(c: char) { IsAsciiUpper(c) || IsAsciiLower(c) }

  predicate IsAsciiDigit(c: char) { '0' <= c <= '9' }

  /** `c.lower()` for ASCII letters; every other character is left alone. */
  function LowerChar(c: char): (r: char)
    ensures !IsAsciiUpper(r)
    ensures IsAsciiLetter(r) <==> IsAsciiLetter(c)
    ensures !IsAsciiLetter(c) ==> r == c
  {
    if IsAsciiUpper(c) then (c as int - 'A' as int + 'a' as int) as char else c
  }

  /** `s.lower()`, character by character. */
  function Lower(s: string): (r: string)
    ensures |r| == |s|
    ensures forall i :: 0 <= i < |s| ==> r[i] == LowerChar(s[i])
  {
    seq(|s|, i requires 0 <= i < |s| => LowerChar(s[i]))
  }

  /** Lower-casing twice is lower-casing once. */
  lemma LowerIdempotent(s: string)
    ensures Lower(Lower(s)) == Lower(s)
  {
  }

  /** Lower-casing distributes over concatenation. */
  lemma LowerConcat(a: string, b: string)
    ensures Lower(a + b) == Lower(a) + Lower(b)
  {
  }

  /** Lower-casing commutes with taking a slice. */
  lemma LowerSlice(s: string, i: nat, j: nat)
    requires i <= j <= |s|
    ensures Lower(s)[i..j] == Lower(s[i..j])
  {
  }

  /** A string without upper-case ASCII letters is its own lower-case form. */
  lemma LowerOfLower(s: string)
    requires forall i :: 0 <= i < |s| ==> !IsAsciiUpper(s[i])
    ensures Lower(s) == s
  {
  }

  /** A set of characters that holds no ASCII letter, such as a set of delimiters. */
  predicate NoLetters(cs: set<char>)
  {
    forall c :: c in cs ==> !IsAsciiLetter(c)
  }

  /**
   The index of the first character of `s` in `cs`, or `|s|` when there is
   none (Python's `str.find`, with `|s|` in place of -1).
   */
  function Find(s: string, cs: set<char>): (k: nat)
    ensures k <= |s|
    ensures forall i :: 0 <= i < k ==> s[i] !in cs
    ensures k < |s| ==> s[k] in cs
  {
    if s == [] then 0
    else if s[0] in cs then 0
    else 1 + Find(s[1..], cs)
  }

  /** `Find` is pinned down by its contract. */
  lemma FindIs(s: string, cs: set<char>, k: nat)
    requires k <= |s|
    requires forall i :: 0 <= i < k ==> s[i] !in cs
    requires k < |s| ==> s[k] in cs
    ensures Find(s, cs) == k
  {
  }

  /** Whether some character of `s` is in `cs` (Python's `c in s`). */
  predicate Has(s: string, cs: set<char>)
  {
    Find(s, cs) < |s|
  }

  /** A concatenation has a character of `cs` exactly when one of its parts has. */
  lemma HasConcat(a: string, b: string, cs: set<char>)
    ensures Has(a + b, cs) == (Has(a, cs) || Has(b, cs))
  {
    var ab := a + b;
    if Has(a, cs) {
      FindIs(ab, cs, Find(a, cs));
    } else if Has(b, cs) {
      assert forall i | 0 <= i < |a| :: ab[i] == a[i];
      assert ab[|a| + Find(b, cs)] == b[Find(b, cs)];
      FindIs(ab, cs, |a| + Find(b, cs));
    } else {
      assert forall i | 0 <= i < |a| :: ab[i] == a[i];
      assert forall i | |a| <= i < |ab| :: ab[i] == b[i - |a|];
      FindIs(ab, cs, |ab|);
    }
  }

  /** Lower-casing leaves every character in or out of a letter-free set as it was. */
  lemma LowerKeepsMembership(s: string, cs: set<char>)
    requires NoLetters(cs)
    ensures forall i :: 0 <= i < |s| ==> (Lower(s)[i] in cs) == (s[i] in cs)
  {
    forall i | 0 <= i < |s|
      ensures (Lower(s)[i] in cs) == (s[i] in cs)
    {
      if IsAsciiLetter(s[i]) {
        assert IsAsciiLetter(Lower(s)[i]);
      }
    }
  }

  /** The first delimiter does not move under lower-casing. */
  lemma FindLower(s: string, cs: set<char>)
    requires NoLetters(cs)
    ensures Find(Lower(s), cs) == Find(s, cs)
  {
    var k := Find(s, cs);
    LowerKeepsMembership(s, cs);
    if k < |s| {
      assert Lower(s)[k] in cs;
    }
  }

  /** The length of the longest suffix of `s` that holds no character of `cs`. */
  function TailLen(s: string, cs: set<char>): (n: nat)
    ensures n <= |s|
    ensures forall i :: |s| - n <= i < |s| ==> s[i] !in cs
    ensures n < |s| ==> s[|s| - n - 1] in cs
  {
    if s == [] || s[|s| - 1] in cs then 0 else 1 + TailLen(s[..|s| - 1], cs)
  }

  /** `TailLen` is pinned down by its contract. */
  lemma TailLenIs(s: string, cs: set<char>, n: nat)
    requires n <= |s|
    requires forall i :: |s| - n <= i < |s| ==> s[i] !in cs
    requires n < |s| ==> s[|s| - n - 1] in cs
    ensures TailLen(s, cs) == n
  {
  }

  /**
   The part of `s` after the last character in `cs`, or all of `s` when
   there is none (the third part of Python's `str.rpartition`).
   */
  function AfterLast(s: string, cs: set<char>): (r: string)
    ensures |r| <= |s| && r == s[|s| - |r|..]
    ensures forall i :: 0 <= i < |r| ==> r[i] !in cs
    ensures |r| < |s| ==> s[|s| - |r| - 1] in cs
  {
    s[|s| - TailLen(s, cs)..]
  }

  /** Without a character of `cs`, `AfterLast` keeps the whole string. */
  lemma AfterLastWhole(s: string, cs: set<char>)
    requires forall i :: 0 <= i < |s| ==> s[i] !in cs
    ensures AfterLast(s, cs) == s
  {
    TailLenIs(s, cs, |s|);
  }

  /** Taking what follows the last delimiter commutes with lower-casing. */
  lemma AfterLastLower(s: string, cs: set<char>)
    requires NoLetters(cs)
    ensures AfterLast(Lower(s), cs) == Lower(AfterLast(s, cs))
  {
    var n := TailLen(s, cs);
    LowerKeepsMembership(s, cs);
    TailLenIs(Lower(s), cs, n);
    LowerSlice(s, |s| - n, |s|);
  }

  /** `needle` occurs in `hay` starting at index `i`. */
  predicate OccursAt(hay: string, needle: string, i: nat)
  {
    i + |needle| <= |hay| && hay[i..i + |needle|] == needle
  }

  /** The declarative meaning of Python's `needle in hay` on strings. */
  ghost predicate IsSubstring(needle: string, hay: string)
  {
    exists i: nat :: OccursAt(hay, needle, i)
  }

  lemma OccursShift(hay: string, needle: string, j: nat)
    requires |hay| > 0
    ensures OccursAt(hay[1..], needle, j) <==> OccursAt(hay, needle, j + 1)
  {
    if j + 1 + |needle| <= |hay| {
      assert hay[1..][j..j + |needle|] == hay[j + 1..j + 1 + |needle|];
    }
  }

  /** Past a start that does not match, `needle` occurs in `hay` exactly when it occurs in its tail. */
  lemma SubstringOfTail(hay: string, needle: string)
    requires |hay| > 0 && !(needle <= hay)
    ensures IsSubstring(needle, hay) <==> IsSubstring(needle, hay[1..])
  {
    if IsSubstring(needle, hay) {
      var j: nat :| OccursAt(hay, needle, j);
      assert j != 0;
      OccursShift(hay, needle, j - 1);
    }
    if IsSubstring(needle, hay[1..]) {
      var j: nat :| OccursAt(hay[1..], needle, j);
      OccursShift(hay, needle, j);
    }
  }

  lemma NotSubstringOfShort(hay: string, needle: string)
    requires |hay| <= |needle| && !(needle <= hay)
    ensures !IsSubstring(needle, hay)
  {
  }

  /** Python's `needle in hay`, by scanning the start positions left to right. */
  function Contains(hay: string, needle: string): (r: bool)
    ensures r <==> IsSubstring(needle, hay)
    decreases |hay|
  {
    if needle <= hay then
      assert OccursAt(hay, needle, 0);
      true
    else if |hay| <= |needle| then
      NotSubstringOfShort(hay, needle);
      false
    else
      SubstringOfTail(hay, needle);
      Contains(hay[1..], needle)
  }

  /** A substring of a substring of `hay` is a substring of `hay`. */
  lemma SubstringTransitive(a: string, b: string, c: string)
    requires IsSubstring(a, b) && IsSubstring(b, c)
    ensures IsSubstring(a, c)
  {
    var i: nat :| OccursAt(b, a, i);
    var j: nat :| OccursAt(c, b, j);
    forall k | 0 <= k < |a|
      ensures c[j + i + k] == a[k]
    {
      assert c[j..j + |b|][i + k] == b[i + k];
      assert b[i..i + |a|][k] == a[k];
    }
    assert OccursAt(c, a, j + i);
  }
}

=== FILE: url_split.dfy ===
/**
 A model of `urlsplit(url).hostname.lower()`, which is the only use either
 finder makes of the URL library. It follows Python 3's `urllib.parse.urlsplit`.
 A URL may start with a scheme: a letter, then letters, digits, `+`, `-` or
 `.`, ended by the first `:`. If the rest starts with `//`, a network
 location follows and runs to the first `/`, `?` or `#`. The host is what
 comes after the last `@` of the network location, up to the first `:`.
 `None` stands for the cases where the source raises:
 - `.hostname` is `None` (there is no network location, or the host is
   empty), so `.lower()` fails;
 - the network location holds a square bracket, userinfo included. There
   `urlsplit` raises `ValueError`, unless the part after the last `@` is
   a bracketed IP literal, which this model does not parse.
 */
module UrlSplit {
  import opened Wrappers
  import opened Text

  const Colon: set<char> := {':'}
  const At: set<char> := {'@'}
  const Brackets: set<char> := {'[', ']'}
  /** The characters that end a network location. */
  const NetlocDelims: set<char> := {'/', '?', '#'}

  predicate IsSchemeChar(c: char)
  {
    IsAsciiLetter(c) || IsAsciiDigit(c) || c == '+' || c == '-' || c == '.'
  }

  /** A character that may appear in a host as this model reads it. */
  predicate IsHostChar(c: char)
  {
    c !in Colon && c !in At && c !in Brackets && c !in NetlocDelims
  }

  /** A scheme that `urlsplit` recognises, such as `https`. */
  predicate ValidScheme(scheme: string)
  {
    && |scheme| > 0
    && IsAsciiLetter(scheme[0])
    && forall i :: 0 <= i < |scheme| ==> IsSchemeChar(scheme[i])
  }

  /** Whether `url` starts with a scheme that `urlsplit` recognises. */
  predicate HasScheme(url: string)
  {
    var i := Find(url, Colon);
    0 < i < |url| && ValidScheme(url[..i])
  }

  /** What remains of `url` once a recognised scheme and its `:` are removed. */
  function AfterScheme(url: string): (rest: string)
    ensures |rest| <= |url| && rest == url[|url| - |rest|..]
  {
    if HasScheme(url) then url[Find(url, Colon) + 1..] else url
  }

  /** The network location at the start of `rest`, if it starts with `//`; empty otherwise. */
  function NetlocOfRest(rest: string): (n: string)
    ensures forall i :: 0 <= i < |n| ==> n[i] !in NetlocDelims
  {
    if |rest| >= 2 && rest[..2] == "//" then
      var auth := rest[2..];
      auth[..Find(auth, NetlocDelims)]
    else
      ""
  }

  /** The network location of `url`; empty when there is none. */
  function Netloc(url: string): (n: string)
    ensures forall i :: 0 <= i < |n| ==> n[i] !in NetlocDelims
  {
    NetlocOfRest(AfterScheme(url))
  }

  /** The host and port of a network location: what follows its last `@`. */
  function HostInfo(netloc: string): (hostinfo: string)
    requires forall i :: 0 <= i < |netloc| ==> netloc[i] !in NetlocDelims
    ensures forall i :: 0 <= i < |hostinfo| ==> hostinfo[i] !in NetlocDelims && hostinfo[i] !in At
  {
    HostInfoChars(netloc);
    AfterLast(netloc, At)
  }

  /** What is left after the last `@` holds no `@` and no character that ends a network location. */
  lemma HostInfoChars(netloc: string)
    requires forall i :: 0 <= i < |netloc| ==> netloc[i] !in NetlocDelims
    ensures var hostinfo := AfterLast(netloc, At);
      forall i :: 0 <= i < |hostinfo| ==> hostinfo[i] !in NetlocDelims && hostinfo[i] !in At
  {
    var hostinfo := AfterLast(netloc, At);
    var d := |netloc| - |hostinfo|;
    forall i | 0 <= i < |hostinfo|
      ensures hostinfo[i] !in NetlocDelims && hostinfo[i] !in At
    {
      assert hostinfo[i] == netloc[d..][i] == netloc[d + i];
    }
  }

  /** What follows the last `@` of a bracket-free network location is bracket-free. */
  lemma NoBracketsAfterLastAt(netloc: string)
    requires forall i :: 0 <= i < |netloc| ==> netloc[i] !in NetlocDelims
    requires !Has(netloc, Brackets)
    ensures !Has(HostInfo(netloc), Brackets)
  {
    var hostinfo := HostInfo(netloc);
    var d := |netloc| - |hostinfo|;
    forall i | 0 <= i < |hostinfo|
      ensures hostinfo[i] !in Brackets
    {
      assert hostinfo[i] == netloc[d..][i] == netloc[d + i];
    }
    FindIs(hostinfo, Brackets, |hostinfo|);
  }

  /** The host part of a bracket-free host-and-port: up to the first `:`. */
  function HostOf(hostinfo: string): (host: string)
    requires forall i :: 0 <= i < |hostinfo| ==> hostinfo[i] !in NetlocDelims && hostinfo[i] !in At
    requires !Has(hostinfo, Brackets)
    ensures forall i :: 0 <= i < |host| ==> IsHostChar(host[i])
  {
    hostinfo[..Find(hostinfo, Colon)]
  }

  /**
   `urlsplit(url).hostname.lower()`, or `None` where that expression raises
   or, for a bracketed host, is not modelled.
   */
  function LoweredHostname(url: string): (r: Option<string>)
    ensures r.Some? ==> |r.value| > 0
    ensures r.Some? ==> forall i :: 0 <= i < |r.value| ==> IsHostChar(r.value[i]) && !IsAsciiUpper(r.value[i])
  {
    HostnameOfNetloc(Netloc(url))
  }

  /** The lower-cased hostname of a network location, `None` where there is none. */
  function HostnameOfNetloc(netloc: string): (r: Option<string>)
    requires forall i :: 0 <= i < |netloc| ==> netloc[i] !in NetlocDelims
    ensures r.Some? ==> |r.value| > 0
    ensures r.Some? ==> forall i :: 0 <= i < |r.value| ==> IsHostChar(r.value[i]) && !IsAsciiUpper(r.value[i])
  {
    if Has(netloc, Brackets) then None
    else
      var hostinfo := HostInfo(netloc);
      NoBracketsAfterLastAt(netloc);
      var host := HostOf(hostinfo);
      if host == [] then None else LowerKeepsHostChars(host); Some(Lower(host))
  }

  /** Host characters are no letters but for the ASCII ones, so lower-casing keeps them host characters. */
  lemma LowerKeepsHostChars(host: string)
    requires forall i :: 0 <= i < |host| ==> IsHostChar(host[i])
    ensures forall i :: 0 <= i < |host| ==> IsHostChar(Lower(host)[i]) && !IsAsciiUpper(Lower(host)[i])
  {
    forall i | 0 <= i < |host|
      ensures IsHostChar(Lower(host)[i])
    {
      if IsAsciiLetter(host[i]) {
        assert IsAsciiLetter(Lower(host)[i]);
      }
    }
  }

  lemma AfterSchemeOf(scheme: string, rest: string)
    requires ValidScheme(scheme)
    ensures AfterScheme(scheme + ":" + rest) == rest
  {
    var url := scheme + ":" + rest;
    assert Find(url, Colon) == |scheme| by {
      assert url[|scheme|] in Colon;
      assert forall i | 0 <= i < |scheme| :: url[i] == scheme[i];
      FindIs(url, Colon, |scheme|);
    }
    assert url[..|scheme|] == scheme;
    assert HasScheme(url);
    assert url[|scheme| + 1..] == rest;
  }

  lemma FindDelimAfterHost(host: string, rest: string)
    requires forall i :: 0 <= i < |host| ==> host[i] !in NetlocDelims
    requires rest == [] || rest[0] in NetlocDelims
    ensures Find(host + rest, NetlocDelims) == |host|
  {
    var auth := host + rest;
    assert forall i | 0 <= i < |host| :: auth[i] == host[i];
    assert |host| < |auth| ==> auth[|host|] == rest[0];
    FindIs(auth, NetlocDelims, |host|);
  }

  lemma NetlocOfRestOf(host: string, rest: string)
    requires forall i :: 0 <= i < |host| ==> host[i] !in NetlocDelims
    requires rest == [] || rest[0] in NetlocDelims
    ensures NetlocOfRest("//" + host + rest) == host
  {
    var after := "//" + host + rest;
    assert after[..2] == "//";
    assert after[2..] == host + rest;
    FindDelimAfterHost(host, rest);
    assert (host + rest)[..|host|] == host;
  }

  lemma NetlocOf(scheme: string, host: string, rest: string)
    requires ValidScheme(scheme)
    requires forall i :: 0 <= i < |host| ==> host[i] !in NetlocDelims
    requires rest == [] || rest[0] in NetlocDelims
    ensures Netloc(scheme + "://" + host + rest) == host
  {
    var after := "//" + host + rest;
    assert scheme + "://" + host + rest == scheme + ":" + after;
    AfterSchemeOf(scheme, after);
    NetlocOfRestOf(host, rest);
  }

  lemma HostOfPlain(host: string)
    requires forall i :: 0 <= i < |host| ==> IsHostChar(host[i])
    ensures forall i :: 0 <= i < |host| ==> host[i] !in NetlocDelims
    ensures HostInfo(host) == host && !Has(host, Brackets)
    ensures HostOf(host) == host
  {
    AfterLastWhole(host, At);
    FindIs(host, Brackets, |host|);
    FindIs(host, Colon, |host|);
    assert host[..|host|] == host;
  }

  /** A host written out after a scheme is read back, lower-cased. */
  lemma HostnameOfAuthority(scheme: string, host: string, rest: string)
    requires ValidScheme(scheme)
    requires |host| > 0 && forall i :: 0 <= i < |host| ==> IsHostChar(host[i])
    requires rest == [] || rest[0] in NetlocDelims
    ensures LoweredHostname(scheme + "://" + host + rest) == Some(Lower(host))
  {
    NetlocOf(scheme, host, rest);
    HostOfPlain(host);
  }

  /** A host written out after bracket-free userinfo is read back, lower-cased: everything up to the last `@` is skipped. */
  lemma HostnameAfterUserinfo(scheme: string, userinfo: string, host: string, rest: string)
    requires ValidScheme(scheme)
    requires forall i :: 0 <= i < |userinfo| ==> userinfo[i] !in NetlocDelims
    requires !Has(userinfo, Brackets)
    requires |host| > 0 && forall i :: 0 <= i < |host| ==> IsHostChar(host[i])
    requires rest == [] || rest[0] in NetlocDelims
    ensures LoweredHostname(scheme + "://" + userinfo + "@" + host + rest) == Some(Lower(host))
  {
    var netloc := userinfo + "@" + host;
    UserinfoNetlocChars(userinfo, host);
    assert scheme + "://" + userinfo + "@" + host + rest == scheme + "://" + netloc + rest;
    NetlocOf(scheme, netloc, rest);
    HostnameOfUserinfoNetloc(userinfo, host);
  }

  lemma UserinfoNetlocChars(userinfo: string, host: string)
    requires forall i :: 0 <= i < |userinfo| ==> userinfo[i] !in NetlocDelims
    requires forall i :: 0 <= i < |host| ==> IsHostChar(host[i])
    ensures forall i :: 0 <= i < |userinfo + "@" + host| ==> (userinfo + "@" + host)[i] !in NetlocDelims
  {
    var netloc := userinfo + "@" + host;
    forall i | 0 <= i < |netloc| ensures netloc[i] !in NetlocDelims {
      if i > |userinfo| {
        assert netloc[i] == host[i - |userinfo| - 1];
      } else if i < |userinfo| {
        assert netloc[i] == userinfo[i];
      }
    }
  }

  lemma HostnameOfUserinfoNetloc(userinfo: string, host: string)
    requires forall i :: 0 <= i < |userinfo + "@" + host| ==> (userinfo + "@" + host)[i] !in NetlocDelims
    requires !Has(userinfo, Brackets)
    requires |host| > 0 && forall i :: 0 <= i < |host| ==> IsHostChar(host[i])
    ensures HostnameOfNetloc(userinfo + "@" + host) == Some(Lower(host))
  {
    HostOfPlain(host);
    HostInfoAfterUserinfo(userinfo, host);
    BracketsOfUserinfoNetloc(userinfo, host);
  }

  lemma HostInfoAfterUserinfo(userinfo: string, host: string)
    requires forall i :: 0 <= i < |userinfo + "@" + host| ==> (userinfo + "@" + host)[i] !in NetlocDelims
    requires forall i :: 0 <= i < |host| ==> IsHostChar(host[i])
    ensures HostInfo(userinfo + "@" + host) == host
  {
    var netloc := userinfo + "@" + host;
    assert netloc[|netloc| - |host|..] == host;
    assert netloc[|netloc| - |host| - 1] == '@';
    TailLenIs(netloc, At, |host|);
  }

  /** A bracket-free host after userinfo: the network location has a bracket exactly when the userinfo has. */
  lemma BracketsOfUserinfoNetloc(userinfo: string, host: string)
    requires !Has(host, Brackets)
    ensures Has(userinfo + "@" + host, Brackets) == Has(userinfo, Brackets)
  {
    HasConcat(userinfo + "@", host, Brackets);
    HasConcat(userinfo, "@", Brackets);
  }

  /**
   A square bracket anywhere in the userinfo leaves no hostname: Python 3's
   `urlsplit` checks the part after the last `@` as an IP literal and raises
   `ValueError` for an ordinary host.
   */
  lemma BracketedUserinfoHasNoHost(scheme: string, userinfo: string, host: string, rest: string)
    requires ValidScheme(scheme)
    requires forall i :: 0 <= i < |userinfo| ==> userinfo[i] !in NetlocDelims
    requires Has(userinfo, Brackets)
    requires forall i :: 0 <= i < |host| ==> IsHostChar(host[i])
    requires rest == [] || rest[0] in NetlocDelims
    ensures LoweredHostname(scheme + "://" + userinfo + "@" + host + rest).None?
  {
    var netloc := userinfo + "@" + host;
    UserinfoNetlocChars(userinfo, host);
    assert scheme + "://" + userinfo + "@" + host + rest == scheme + "://" + netloc + rest;
    NetlocOf(scheme, netloc, rest);
    HostOfPlain(host);
    BracketsOfUserinfoNetloc(userinfo, host);
  }

  lemma ValidSchemeLower(scheme: string)
    ensures ValidScheme(Lower(scheme)) == ValidScheme(scheme)
  {
    assert forall j :: 0 <= j < |scheme| ==> IsSchemeChar(Lower(scheme)[j]) == IsSchemeChar(scheme[j]);
  }

  lemma HasSchemeLower(url: string)
    ensures HasScheme(Lower(url)) == HasScheme(url)
  {
    var i := Find(url, Colon);
    FindLower(url, Colon);
    if 0 < i < |url| {
      LowerSlice(url, 0, i);
      ValidSchemeLower(url[..i]);
    }
  }

  lemma AfterSchemeLower(url: string)
    ensures AfterScheme(Lower(url)) == Lower(AfterScheme(url))
  {
    HasSchemeLower(url);
    if HasScheme(url) {
      var i := Find(url, Colon);
      FindLower(url, Colon);
      assert AfterScheme(Lower(url)) == Lower(url)[i + 1..];
      LowerSlice(url, i + 1, |url|);
    }
  }

  lemma DoubleSlashLower(rest: string)
    requires |rest| >= 2
    ensures (Lower(rest)[..2] == "//") == (rest[..2] == "//")
  {
    LowerSlice(rest, 0, 2);
    assert Lower(rest[..2])[0] == LowerChar(rest[0]);
    assert Lower(rest[..2])[1] == LowerChar(rest[1]);
  }

  lemma AuthorityLower(auth: string)
    ensures Lower(auth)[..Find(Lower(auth), NetlocDelims)] == Lower(auth[..Find(auth, NetlocDelims)])
  {
    FindLower(auth, NetlocDelims);
    LowerSlice(auth, 0, Find(auth, NetlocDelims));
  }

  lemma NetlocOfRestLower(rest: string)
    ensures NetlocOfRest(Lower(rest)) == Lower(NetlocOfRest(rest))
  {
    if |rest| >= 2 {
      DoubleSlashLower(rest);
      if rest[..2] == "//" {
        LowerSlice(rest, 2, |rest|);
        AuthorityLower(rest[2..]);
      }
    }
  }

  lemma NetlocLower(url: string)
    ensures Netloc(Lower(url)) == Lower(Netloc(url))
  {
    AfterSchemeLower(url);
    NetlocOfRestLower(AfterScheme(url));
  }

  lemma HostInfoLower(netloc: string)
    requires forall i :: 0 <= i < |netloc| ==> netloc[i] !in NetlocDelims
    ensures forall i :: 0 <= i < |Lower(netloc)| ==> Lower(netloc)[i] !in NetlocDelims
    ensures HostInfo(Lower(netloc)) == Lower(HostInfo(netloc))
  {
    LowerKeepsMembership(netloc, NetlocDelims);
    AfterLastLower(netloc, At);
  }

  lemma HostOfLower(hostinfo: string)
    requires forall i :: 0 <= i < |hostinfo| ==> hostinfo[i] !in NetlocDelims && hostinfo[i] !in At
    requires !Has(hostinfo, Brackets)
    ensures forall i :: 0 <= i < |Lower(hostinfo)| ==> Lower(hostinfo)[i] !in NetlocDelims && Lower(hostinfo)[i] !in At
    ensures !Has(Lower(hostinfo), Brackets)
    ensures HostOf(Lower(hostinfo)) == Lower(HostOf(hostinfo))
  {
    LowerKeepsMembership(hostinfo, NetlocDelims);
    LowerKeepsMembership(hostinfo, At);
    FindLower(hostinfo, Brackets);
    FindLower(hostinfo, Colon);
    LowerSlice(hostinfo, 0, Find(hostinfo, Colon));
  }

  /**
   Lower-casing a whole URL changes neither whether it has a host nor which
   host it has, so every check made on `LoweredHostname` ignores case.
   */
  lemma HostnameIgnoresCase(url: string)
    ensures LoweredHostname(Lower(url)) == LoweredHostname(url)
  {
    NetlocLower(url);
    HostnameOfNetlocLower(Netloc(url));
  }

  lemma HostnameOfNetlocLower(netloc: string)
    requires forall i :: 0 <= i < |netloc| ==> netloc[i] !in NetlocDelims
    ensures forall i :: 0 <= i < |Lower(netloc)| ==> Lower(netloc)[i] !in NetlocDelims
    ensures HostnameOfNetloc(Lower(netloc)) == HostnameOfNetloc(netloc)
  {
    FindLower(netloc, Brackets);
    HostInfoLower(netloc);
    if !Has(netloc, Brackets) {
      var hostinfo := HostInfo(netloc);
      NoBracketsAfterLastAt(netloc);
      HostOfLower(hostinfo);
      LowerIdempotent(HostOf(hostinfo));
    }
  }
}

=== FILE: wrappers.dfy ===
/** The Some/None datatype standing in for Python's `None` results. */
module Wrappers {

  datatype Option<+T> = None | Some(value: T) {

    /** Returns the value in Some, or the given default when None */
    function GetOr(default: T): (r: T)
      ensures Some? ==> r == value
      ensures None? ==> r == default
    {
      match this
      case Some(v) => v
      case None => default
    }
  }
}
